=== FILE: README.md ===
# simulation-idempotency in Dafny

This project models the decision rules of a small order → payment → fulfilment pipeline. The system is written in Go and has three services and a simulation tool:

- **internal-order.** It creates phone-credit orders with a random operator, amount and phone number. It consumes `payment.paid` messages from NATS and moves the order to `paid`. It logs an attempt row, then decides with a count gate (`IDEMPOTENCY_CHECK`) whether to dispatch. A dispatch reads the order and logs a numbered attempt. It calls the external fulfilment service and moves the order to `fulfilment` on HTTP 200.
- **internal-payment.** It accepts a payment and publishes 1–3 identical `payment.paid` messages, the number chosen by a random draw. It then stores the payment with insert-or-ignore on a unique `order_id`.
- **external-order-fulfilment.** It serves fulfilment requests. With `EXTERNAL_IDEMPOTENCY_CHECK` on it replays a stored result for an order id. Otherwise it draws success or a 10 % random error and inserts a row into `ext_orders`, which has no unique key on `order_id`.
- **tooling.** It runs N iterations split over four workers. Each iteration creates an order and pays it with at most three attempts, retrying only timeouts. The tool counts successes and timeouts and prints settlement totals.

The model is functional. Every table is an immutable value:

- `internal_orders` is a map keyed by id;
- `fulfillment_attempts` and `ext_orders` are sequences;
- `internal_payments` is a map, because of its unique key;
- NATS is an outbox sequence.

Every clock read, random draw, generated UUID or correlation id, and database, publish or HTTP failure is an explicit parameter. The modules are:

- `Base`: `Option`, substring search, HTTP status codes and replies.
- `Models`: the records of `pkg/models/order.go`.
- `OrderGen`: `pkg/utils/order.go`.
- `Correlation`: `pkg/utils/correlation.go`.
- `OrderService`: `internal-order/main.go`.
- `OrderRace`: the insert/count interleaving of concurrent payment handlers.
- `PaymentService`: `internal-payment/main.go`.
- `Fulfilment`: `external-order-fulfilment/main.go`.
- `Harness`: `tooling/main.go`.
- `Pipeline`: the three services composed for one order.

Two behaviours of the code that are easy to misread:

- The harness reports "TIMEOUT after 3 retries" (tooling/main.go:154), but its loop (tooling/main.go:139) makes three payment calls in all, so there are only two retries.
- The order service reads only `resp.StatusCode` of the fulfilment reply (internal-order/main.go:196). A reply whose body says `"error"` still arrives with HTTP 200, so the order moves to `fulfilment` anyway.

## Model

| member | source | states |
|---|---|---|
| OrderGen.GenerateRandomOrder | pkg/utils/order.go:13-54 | The order keeps the given id and creation time and has status pending and type phone_credit. The operator is picked by `n % 3`, the fee matches the operator, and total = amount + admin fee. The amount is `1000 * ((n % 9) + 1)` for the amount reading n, a multiple of 1000 in 1000..9000. The phone is 13 characters: the operator's prefix plus two digits whose value is `(n % 99) + 1`. |
| OrderGen.OperatorAtIndex | pkg/utils/order.go:14-15 | Readings with remainder 0, 1, 2 mod 3 pick indosat, xl and three, in both directions. |
| OrderGen.AdminFeeDeterminesOperator | pkg/utils/order.go:17-25 | The fee is one of 100/200/300, and two operators have the same fee exactly when they are the same operator. |
| OrderGen.AmountAtClosedForm | pkg/utils/order.go:27-28 | The amount table lookup equals `1000 * ((n % 9) + 1)`. |
| OrderGen.TwoDigitsRoundTrip | pkg/utils/order.go:40 | The zero-padded two-digit suffix reads back as the number it printed. |
| OrderGen.DeterminePublishCount | pkg/utils/order.go:64-75 | The number of copies is always 1, 2 or 3. |
| OrderGen.PublishCountBands | pkg/utils/order.go:68-74 | The draw gives 1 copy iff chance < 70, 2 iff 70 <= chance < 90, and 3 iff chance >= 90. |
| OrderGen.PublishOnceCount | pkg/utils/order.go:66-69 | Exactly 70 of the 100 draws give one copy. |
| OrderGen.PublishTwiceCount | pkg/utils/order.go:70-71 | Exactly 20 of the 100 draws give two copies. |
| OrderGen.PublishThriceCount | pkg/utils/order.go:72-74 | Exactly 10 of the 100 draws give three copies. |
| Correlation.FallbackIndex | pkg/utils/correlation.go:14-16 | The fallback index `i*17 % 36` is always inside the alphabet. |
| Correlation.GenerateCorrelationId | pkg/utils/correlation.go:8-21 | The buffer-filling loop yields the id defined draw by draw: 6 characters, each from A–Z0–9. |
| Correlation.CorrelationId | pkg/utils/correlation.go:9-10 | Every id is 6 characters over the 36-symbol alphabet. |
| Correlation.DrawsRecoverable | pkg/utils/correlation.go:12-17 | When every draw succeeds, each character reads back as the index that was drawn. |
| Correlation.AllDrawsFail | pkg/utils/correlation.go:12-18 | When all six draws fail, the id is "AR8P6N". |
| OrderService.SetStatus | internal-order/main.go:120 | The status UPDATE changes only the status of the named order, and changes nothing when the id is unknown. |
| OrderService.CreateOrder | internal-order/main.go:66-101 | Non-POST gives 405 and nothing changes. An insert failure or duplicate id gives 500 and nothing changes. Otherwise exactly one order is added, the one `GenerateRandomOrder` builds from the draws. It is pending, the attempts are untouched, and the reply carries exactly its fields. |
| OrderService.HandlePaymentPaid | internal-order/main.go:104-150 | An undecodable message or failed UPDATE changes nothing and dispatches nothing. Otherwise the order is set to paid and one placeholder attempt (number 1, amount 0, phone "") is logged unless the insert fails. There is no dispatch iff the check is on, the count succeeds and the count is > 1. The dispatch carries the message's correlation id, or a generated one when it is empty. |
| OrderService.PrepareDispatch | internal-order/main.go:152-185 | An unreadable or unknown order stops the dispatch with no change. Otherwise the request is built from the stored amount and phone, and one attempt is logged with number count+1, or 1 when the count fails. |
| OrderService.ApplyReply | internal-order/main.go:187-202 | Only an HTTP 200 with a successful UPDATE sets the order to fulfilment. A transport error or any other status leaves the orders unchanged. |
| OrderService.ProcessFulfillment | internal-order/main.go:152-203 | The whole dispatch. The order is in fulfilment afterwards iff the call returned 200 and the update succeeded, or it already was. No other order changes. |
| OrderService.DeliverAll | internal-order/main.go:104-150 | Sequential deliveries without storage faults keep the set of orders and every earlier attempt row, and append one placeholder row per delivery, for that delivery's order, in delivery order. |
| OrderService.ToggleOnDispatchesAtMostOnce | internal-order/main.go:136-149 | With the check on and no storage faults, K sequential deliveries for one order dispatch at most once. They dispatch exactly once iff K > 0 and no attempt row existed. The row count grows by K. |
| OrderService.NoDispatchAfterFirstRow | internal-order/main.go:136-144 | Once an attempt row exists, no further delivery without storage faults dispatches (check on). |
| OrderService.ToggleOffDispatchesEach | internal-order/main.go:145-149 | With the check off and no storage faults, each of K deliveries dispatches, in delivery order. |
| OrderService.DeliverAllMarksPaid | internal-order/main.go:119-124 | Any number of deliveries without storage faults for an order leave the orders table as one delivery does: that order paid, the rest untouched. |
| OrderService.LateDuplicateRegresses | internal-order/main.go:119-124 | A delivery for an order already in fulfilment moves it back to paid. |
| OrderService.UnknownOrderIsInert | internal-order/main.go:119-160 | The first delivery for an unknown id, with the check on and no faults, logs a row and dispatches, but the dispatch makes no call and the orders table never changes. |
| OrderService.InsertFailureFailsOpen | internal-order/main.go:128-149 | With the check on, if the first copy's attempt INSERT fails, both that copy and the next one dispatch. |
| OrderService.DispatchBeforeDuplicateRegresses | internal-order/main.go:104-203 | When the detached dispatch finishes before a second copy is handled, the order reaches fulfilment with attempt number 2. The second copy then dispatches nothing and moves the order back to paid. |
| OrderService.PaidAmountIgnored | internal-order/main.go:104-150 | The handler's effect does not depend on the paid amount or paid time. |
| OrderRace.AtMostOneDispatch | internal-order/main.go:128-144 | In any interleaving where each handler inserts before it counts, no two handlers both see a count <= 1. |
| OrderRace.BothInsertFirstNoneDispatch | internal-order/main.go:128-144 | Insert, insert, count, count: both handlers see 2 rows and neither dispatches. |
| OrderRace.SequentialAttemptNumbers | internal-order/main.go:168-183 | On the trace count, insert, count, insert, two dispatches log what two sequential `PrepareDispatch` calls log: attempt numbers n and n+1. |
| OrderRace.DuplicateAttemptNumbers | internal-order/main.go:168-183 | On the trace count, count, insert, insert, both dispatches log the same attempt number n, and the log still grows by two rows. |
| PaymentService.PublishCopies | internal-payment/main.go:101-108 | The outbox keeps its prefix and gains at most `copies` messages, each the same message. Exactly `copies` are added when no publish fails. |
| PaymentService.StorePayment | internal-payment/main.go:110-113 | Insert-or-ignore: an existing record is never changed, a new order gets its record, and a failure changes nothing. |
| PaymentService.TriggerPaymentPaid | internal-payment/main.go:64-118 | Non-POST gives 405 and a bad body gives 400, both with no change. Otherwise the reply is success whatever fails. Between 0 and 3 identical messages carrying the order id, paid amount, one paid_at and the (possibly generated) correlation id are appended, exactly DeterminePublishCount of them when no publish fails. The payment is stored insert-or-ignore, and a failed store leaves the payments table unchanged. |
| PaymentService.PublishedBeforeStored | internal-payment/main.go:101-113 | Between publishing and storing, a message for a new order exists while its payment record does not. |
| PaymentService.OnePaymentRecordPerOrder | internal-payment/main.go:110 | Any number of triggers for one order leave exactly one record, with the first trigger's amount and time. |
| PaymentService.RecordUnchanged | internal-payment/main.go:110 | Once an order has a record, further triggers leave the payments table unchanged. |
| Fulfilment.FindFirst | external-order-fulfilment/main.go:72-85 | The lookup finds nothing iff no row has the order id; otherwise it returns a stored row for that id. |
| Fulfilment.RowCountZero | external-order-fulfilment/main.go:72-85 | An order has no rows iff the lookup finds none. |
| Fulfilment.ReplayOf | external-order-fulfilment/main.go:88-101 | A replay repeats the stored status and error. It carries data iff the stored status is success, and the data's vendor id is the row id. |
| Fulfilment.DrawStatus | external-order-fulfilment/main.go:118-129 | The draw is an error iff chance < 10. |
| Fulfilment.ProcessOrder | external-order-fulfilment/main.go:47-162 | Non-POST gives 405 and a bad body gives 400, with no row written. With the check on and a stored row, that row is replayed and nothing is inserted. An insert failure gives 500. Otherwise exactly one row with the request's id, phone and amount and the drawn status and error is appended and returned. The new row's id is whatever `LastInsertId` reports, and a success's vendor id is that same id. |
| Fulfilment.ReplayIgnoresDraw | external-order-fulfilment/main.go:72-106 | A replay makes no random draw and no insert: its result is the same whatever the draw, clocks or insert outcome. |
| Fulfilment.CallAll | external-order-fulfilment/main.go:47-162 | Sequential calls without storage faults keep every earlier row, add at most one row per call, and give one successful reply per call. |
| Fulfilment.ToggleOnOneRowAndReplay | external-order-fulfilment/main.go:72-141 | With the check on and no storage faults, K sequential calls for a new order insert exactly one row, and every later call replays it. |
| Fulfilment.ReplaysStoredRow | external-order-fulfilment/main.go:72-106 | With the check on, no storage faults and a stored row, every call returns that row's replay and inserts nothing. |
| Fulfilment.LookupFailureFailsOpen | external-order-fulfilment/main.go:72-141 | With the check on and a row already stored, a failed lookup falls through to a fresh draw, and a successful insert stores a further row for the order. |
| Fulfilment.ToggleOffRowPerCall | external-order-fulfilment/main.go:107-150 | With the check off and no storage faults, each call adds one row for the order. |
| Fulfilment.ToggleOffOutcomesDiffer | external-order-fulfilment/main.go:107-150 | With the check off, two calls for one order can store one error row and one success row. |
| Harness.TriggerPaymentError | tooling/main.go:188-225 | 200 gives no error. A transport error mentioning "timeout" becomes "timeout", and any other transport error passes through. Any other status gives "payment service returned status: " followed by digits that read back as the code. |
| Harness.DecimalRoundTrip | tooling/main.go:220 | The `%d` rendering of the status code reads back as the code. |
| Harness.TimeoutClassification | tooling/main.go:152 | The retry loop sees a timeout iff the call was a transport error whose text contains "timeout"; a status error never reads as one. |
| Harness.RunIteration | tooling/main.go:125-165 | A failed creation reports one line and makes no call. Otherwise 1–3 calls are made, each after the first preceded by a pause, and every call before the last timed out. The loop ends early only on success or a non-timeout error. The lines are SUCCESS; TIMEOUT then FAILED - Order; or FAILED payment then FAILED - Order. |
| Harness.AlwaysTimingOut | tooling/main.go:139-164 | A call that always times out is made exactly 3 times with 2 pauses, and reports TIMEOUT then FAILED - Order. |
| Harness.ChunkSize | tooling/main.go:81-84 | The chunk is ceil(count/4): four chunks cover count, and fewer than four extra slots are left over. |
| Harness.WorkerRange | tooling/main.go:89-102 | Worker i runs the iterations of [min(i*c, count), min((i+1)*c, count)). |
| Harness.ScheduleRunsEachOnce | tooling/main.go:81-103 | The four workers together run iterations 1..count, each exactly once. |
| Harness.WorkerOfIndex | tooling/main.go:89-95 | Index j falls in worker i's range iff i = j / c. |
| Harness.RunSimulator | tooling/main.go:78-123 | The success count is the number of iterations that reach a successful call. The timeout count is the number of iterations whose three calls all timed out. Both counts match the reported lines, and together they never exceed count. |
| Harness.IterationTally | tooling/main.go:113-118 | An iteration's lines contain one success iff it succeeded, one timeout iff all three calls timed out, and at most one success-or-timeout line. |
| Harness.Truncate | tooling/main.go:475-480 | A string within maxLen is unchanged. A longer one becomes its first maxLen-3 characters plus "...", exactly maxLen long, or is a slice panic when maxLen < 3. |
| Harness.TruncateIdempotent | tooling/main.go:475-480 | A truncated string is at most maxLen long, and truncating again changes nothing. |
| Harness.ExternalSettlement | tooling/main.go:257-270 | The settled total is the sum over success rows and the failed total is the sum over the other rows. |
| Harness.SettlementSplitsTotal | tooling/main.go:266-270 | Settled plus failed equals the sum of all row amounts. |
| Harness.InternalSettlement | tooling/main.go:327-337 | The fulfilled total is the sum of `total` over orders in fulfilment. |
| Harness.FulfilledBounded | tooling/main.go:335-337 | With non-negative totals, the fulfilled total is between 0 and the total of all orders. It is the whole list when every order is fulfilled. |
| Pipeline.PublishedForOrder | internal-payment/main.go:89-108 | Every message one trigger publishes is for the paid order, and at least one is published. |
| Pipeline.OrderReachesFulfilment | internal-order/main.go:66-203 | On the schedule where all K published copies are handled before the one dispatch runs: the order is created pending, paid with its total and marked paid. It is dispatched exactly once for the K copies, with attempt number K+1. The fulfilment service stores one row with the order's amount and phone, and the order ends in fulfilment even when that row is a random error. |

## Left out

- I/O is modelled as values:
  - HTTP serving and JSON encoding and decoding: a body that does not decode is an absent value;
  - NATS is an outbox sequence and a delivery is one handler call;
  - SQL is operations on maps and sequences;
  - logging, health checks, environment and CLI parsing, `resetDB`, `printAttempt`, timezone helpers and table rendering are left out.
- Clocks, sleeps and deadlines: times are integer parameters. The pauses between payment attempts are counted, not timed. Two sleeps are not modelled, because they only delay: the harness's pause between creating and paying an order (tooling/main.go:137) and the payment handler's configured delay before publishing (internal-payment/main.go:85). The three client deadlines, 5 s for the fulfilment call, 200 ms for the payment call and 500 ms for order creation (tooling/main.go:171-172), appear only as transport error outcomes.
- Randomness and UUIDs are parameters: the `UnixNano` readings, `Intn(100)`, `crypto/rand` draws, and `GenerateUUID7`, including its "" on error.
- Go's `UnixNano() % k` on a negative clock reading would index out of range. The readings are natural numbers here.
- OrderService.DeliverAll: it runs every delivery without storage faults. In the source, a failed attempt INSERT or COUNT fails open (internal-order/main.go:128-141). With the check on, two copies can then both dispatch: for example, when the first copy's INSERT fails. `HandlePaymentPaid` models each of those faults, and `OrderService.InsertFailureFailsOpen` shows the double dispatch. The sequence lemmas do not cover faults.
- Concurrency: goroutines, the WaitGroup and the results channel are sequential runs. `OrderRace` models only the interleaving of INSERT and COUNT in the payment handlers and in the dispatches. Pipeline.OrderReachesFulfilment fixes one schedule, where every copy is handled before the dispatch runs; `OrderService.DispatchBeforeDuplicateRegresses` covers a dispatch that finishes first.
- Correlation ids in the harness:
  - `createOrder`'s id appears only in log lines and is not modelled.
  - `triggerPayment` sends a fresh 6-character id in the request body. It is never empty, so it is the id the payment service publishes and the order service forwards. In the model it is the `correlation` argument of `Pipeline.PayFor`, and `Correlation` describes its shape.
  - `runSimulationIteration`'s id appears in every result line. `Harness.Line` leaves it out, because the tally looks only at the kind of line.
- Equality of ids in SQL is exact string equality; MySQL's default collation compares case-insensitively.
- The ext_orders lookup has no ORDER BY. It is modelled as returning the first stored row for the order.
- Attempt rows' `id` and `attempted_at` columns, the JSON text of payloads, and TIMESTAMP rounding of stored times are not modelled.
- Harness.RunSimulator: it counts results by the kind of line, not by searching the text for "SUCCESS" and "TIMEOUT". An error message that contained those words would be counted by the source and not by the model. The count is a natural number: a negative count, which `strconv.Atoi` accepts, makes the source panic when it creates the results channel, and that panic is not modelled.
- Harness.Truncate: length is in characters; Go's `len` and slicing work on bytes, which differ for non-ASCII text.
- Harness.ExternalSettlement: it folds over the rows given, not the day's SQL query. Rows that fail to scan are skipped by the source and are not modelled; the same holds for Harness.InternalSettlement.
- Fulfilment.CallAll: it runs every call without storage faults. In the source, any lookup error, not only "no rows", falls through to a fresh draw and INSERT (external-order-fulfilment/main.go:84, 111-141). So with the check on, a failed lookup stores a second row for an order that already has one, as `Fulfilment.LookupFailureFailsOpen` shows. The sequence lemmas do not cover faults.
- Fulfilment.ProcessOrder: it assumes `LastInsertId` succeeds, as it does for the MySQL driver. If it failed, the source would report vendor id 0 while the stored row kept its real id. The model stores and reports the same id.
- Fulfilment.ProcessOrder: a fresh success reply's `processed_at` is a separate clock read from the stored one. It is a parameter of its own, and the model claims no relation between the two.

=== FILE: base.dfy ===
/** Small shared vocabulary: optional values, substring search and the
    HTTP request/reply shapes every service handler works with. */
module Base {

  /** A value that may be absent (a failed draw, a missing row, a null field). */
  datatype Option<T> = None | Some(value: T)

  /** Go's `strings.Contains`: `needle` occurs as a contiguous block of `hay`. */
  predicate Contains(hay: string, needle: string)
    decreases |hay|
  {
    if |hay| < |needle| then false
    else hay[..|needle|] == needle || Contains(hay[1..], needle)
  }

  /** Every character is a decimal digit. */
  predicate AllDigits(s: string) {
    forall i :: 0 <= i < |s| ==> '0' <= s[i] <= '9'
  }

  /** The value of a string of decimal digits, most significant first. */
  function DigitsValue(s: string): nat
    requires AllDigits(s)
    decreases |s|
  {
    if |s| == 0 then 0
    else 10 * DigitsValue(s[..|s| - 1]) + (s[|s| - 1] as int - '0' as int)
  }

  /** The HTTP status codes the services emit. */
  const StatusOK: int := 200
  const StatusBadRequest: int := 400
  const StatusMethodNotAllowed: int := 405
  const StatusInternalServerError: int := 500

  /** An inbound HTTP request as the handlers see it: whether the method is
      POST, and the JSON body if it decoded (None when decoding failed). */
  datatype Request<B> = Request(isPost: bool, body: Option<B>)

  /** A handler's reply: a JSON body written without an explicit status
      (so HTTP 200), or an `http.Error` with its code and text. */
  datatype Reply<B> = Ok(body: B) | HttpError(code: int, text: string)
  {
    function Code(): int {
      if Ok? then StatusOK else code
    }
  }
}

=== FILE: correlation.dfy ===
/** Correlation-id generation (pkg/utils/correlation.go). Each of the six
    `crypto/rand` draws is an input: `Some(k)` for a successful draw of
    `k` in [0, 36), `None` for a draw that returned an error. */
module Correlation {
  import opened Base

  const Charset: string := "ABCDEFGHIJKLMNOPQRSTUVWXYZ0123456789"
  const IdLength: nat := 6

  /** The index used when draw `i` fails. */
  function FallbackIndex(i: nat): (k: nat)
    ensures k < |Charset|
  {
    i * 17 % |Charset|
  }

  /** Six draws, each successful one within the alphabet. */
  predicate ValidDraws(draws: seq<Option<nat>>) {
    |draws| == IdLength &&
    forall i :: 0 <= i < |draws| && draws[i].Some? ==> draws[i].value < |Charset|
  }

  /** The alphabet index character `i` is taken from. */
  function IndexFor(draws: seq<Option<nat>>, i: nat): (k: nat)
    requires ValidDraws(draws) && i < IdLength
    ensures k < |Charset|
  {
    match draws[i]
    case Some(k) => k
    case None => FallbackIndex(i)
  }

  /** Position of a character in the alphabet (|Charset| when absent). */
  function CharsetIndex(c: char): (k: nat)
    ensures k <= |Charset|
    ensures k < |Charset| ==> Charset[k] == c
  {
    if 'A' <= c <= 'Z' then c as int - 'A' as int
    else if '0' <= c <= '9' then 26 + (c as int - '0' as int)
    else |Charset|
  }

  /** The first `n` characters the draws produce: character `i` is the
      alphabet symbol at the drawn index, or at the fallback index when the
      draw failed. */
  function IdPrefix(draws: seq<Option<nat>>, n: nat): (id: string)
    requires ValidDraws(draws) && n <= IdLength
    ensures |id| == n
    ensures forall i :: 0 <= i < |id| ==> id[i] in Charset
    decreases n
  {
    if n == 0 then [] else IdPrefix(draws, n - 1) + [Charset[IndexFor(draws, n - 1)]]
  }

  /** The id the six draws produce. */
  function CorrelationId(draws: seq<Option<nat>>): (id: string)
    requires ValidDraws(draws)
    ensures |id| == IdLength
    ensures forall i :: 0 <= i < |id| ==> id[i] in Charset
  {
    IdPrefix(draws, IdLength)
  }

  /** Character `i` of any long-enough prefix comes from draw `i`. */
  lemma {:induction false} IdPrefixAt(draws: seq<Option<nat>>, n: nat, i: nat)
    requires ValidDraws(draws) && i < n <= IdLength
    ensures IdPrefix(draws, n)[i] == Charset[IndexFor(draws, i)]
    decreases n
  {
    if i < n - 1 {
      IdPrefixAt(draws, n - 1, i);
    }
  }

  /** `GenerateCorrelationID`: fills a six-byte buffer one draw at a time. */
  method GenerateCorrelationId(draws: seq<Option<nat>>) returns (id: string)
    requires ValidDraws(draws)
    ensures id == CorrelationId(draws)
    ensures |id| == IdLength
    ensures forall i :: 0 <= i < |id| ==> id[i] in Charset
  {
    id := [];
    var i := 0;
    while i < IdLength
      invariant 0 <= i <= IdLength
      invariant id == IdPrefix(draws, i)
    {
      var k: nat;
      match draws[i] {
        case Some(drawn) => k := drawn;
        case None => k := i * 17 % |Charset|;
      }
      id := id + [Charset[k]];
      i := i + 1;
    }
  }

  /** Every alphabet position reads back as itself: the alphabet has no repeats. */
  lemma CharsetIndexOfCharset(k: nat)
    requires k < |Charset|
    ensures CharsetIndex(Charset[k]) == k
  {
  }

  /** When every draw succeeds, the id determines the draws: reading each
      character back as an alphabet index recovers the draw that chose it. */
  lemma DrawsRecoverable(draws: seq<Option<nat>>)
    requires ValidDraws(draws)
    requires forall i :: 0 <= i < |draws| ==> draws[i].Some?
    ensures forall i :: 0 <= i < IdLength ==> CharsetIndex(CorrelationId(draws)[i]) == draws[i].value
  {
    var id := CorrelationId(draws);
    forall i | 0 <= i < IdLength
      ensures CharsetIndex(id[i]) == draws[i].value
    {
      IdPrefixAt(draws, IdLength, i);
      CharsetIndexOfCharset(draws[i].value);
    }
  }

  /** The characters the fallback indices select, position by position. */
  lemma FallbackChars()
    ensures Charset[FallbackIndex(0)] == 'A' && Charset[FallbackIndex(1)] == 'R'
    ensures Charset[FallbackIndex(2)] == '8' && Charset[FallbackIndex(3)] == 'P'
    ensures Charset[FallbackIndex(4)] == '6' && Charset[FallbackIndex(5)] == 'N'
  {
    assert FallbackIndex(3) == 15;
    assert FallbackIndex(4) == 32;
    assert FallbackIndex(5) == 13;
  }

  /** A failed draw puts the fallback symbol at its position. */
  lemma IdChar(draws: seq<Option<nat>>, i: nat)
    requires ValidDraws(draws) && i < IdLength && draws[i].None?
    ensures CorrelationId(draws)[i] == Charset[FallbackIndex(i)]
  {
    IdPrefixAt(draws, IdLength, i);
  }

  /** If every draw fails, the id is the fixed string "AR8P6N". */
  lemma AllDrawsFail(draws: seq<Option<nat>>)
    requires |draws| == IdLength
    requires forall i :: 0 <= i < |draws| ==> draws[i].None?
    ensures ValidDraws(draws)
    ensures CorrelationId(draws) == "AR8P6N"
  {
    var id := CorrelationId(draws);
    assert id[0] == 'A' by { IdChar(draws, 0); FallbackChars(); }
    assert id[1] == 'R' by { IdChar(draws, 1); FallbackChars(); }
    assert id[2] == '8' by { IdChar(draws, 2); FallbackChars(); }
    assert id[3] == 'P' by { IdChar(draws, 3); FallbackChars(); }
    assert id[4] == '6' by { IdChar(draws, 4); FallbackChars(); }
    assert id[5] == 'N' by { IdChar(draws, 5); FallbackChars(); }
  }
}

=== FILE: fulfilment.dfy ===
/** The external fulfilment service (external-order-fulfilment/main.go).
    `ext_orders` has no unique key on `order_id`, so it is a sequence of rows
    in insertion order. The auto-increment id of a new row is an input, as
    MySQL need not hand out consecutive values. The idempotency
    lookup `SELECT ... WHERE order_id = ?` without ORDER BY is modelled as
    returning the first matching row. */
module Fulfilment {
  import opened Base
  import opened Models

  datatype State = State(rows: seq<ExtOrder>)

  const RandomErrorMessage: string := "Random error occurred"

  /** The per-call inputs: whether the lookup query errs, the `Intn(100)`
      draw, the clock read stored as `processed_at`, the clock read formatted
      into a fresh success reply, whether the INSERT fails, and the
      auto-increment id of the inserted row. The model assumes `LastInsertId`
      succeeds, as it does for the MySQL driver, so the vendor id a success
      reports is that same id. */
  datatype Env = Env(lookupFails: bool, chance: nat, processedAt: int, respondedAt: int, insertFails: bool, insertId: int)

  /** The first stored row for an order. */
  function FindFirst(rows: seq<ExtOrder>, orderId: string): (r: Option<ExtOrder>)
    ensures r.None? <==> forall i :: 0 <= i < |rows| ==> rows[i].orderId != orderId
    ensures r.Some? ==> r.value in rows && r.value.orderId == orderId
    decreases |rows|
  {
    if |rows| == 0 then None
    else if rows[0].orderId == orderId then Some(rows[0])
    else FindFirst(rows[1..], orderId)
  }

  /** Number of stored rows for an order. */
  function RowCount(rows: seq<ExtOrder>, orderId: string): nat
    decreases |rows|
  {
    if |rows| == 0 then 0
    else RowCount(rows[..|rows| - 1], orderId) + (if rows[|rows| - 1].orderId == orderId then 1 else 0)
  }

  lemma RowCountAppend(rows: seq<ExtOrder>, row: ExtOrder, orderId: string)
    ensures RowCount(rows + [row], orderId) == RowCount(rows, orderId) + (if row.orderId == orderId then 1 else 0)
  {
    assert (rows + [row])[..|rows|] == rows;
  }

  lemma {:induction false} RowCountZero(rows: seq<ExtOrder>, orderId: string)
    ensures RowCount(rows, orderId) == 0 <==> FindFirst(rows, orderId).None?
    decreases |rows|
  {
    if |rows| > 0 {
      var last := |rows| - 1;
      RowCountZero(rows[..last], orderId);
      FindFirstPrefixNone(rows, orderId);
    }
  }

  lemma FindFirstPrefixNone(rows: seq<ExtOrder>, orderId: string)
    requires |rows| > 0
    ensures FindFirst(rows, orderId).None? <==>
      FindFirst(rows[..|rows| - 1], orderId).None? && rows[|rows| - 1].orderId != orderId
  {
    var last := |rows| - 1;
    if FindFirst(rows[..last], orderId).None? && rows[last].orderId != orderId {
      forall i | 0 <= i < |rows|
        ensures rows[i].orderId != orderId
      {
        if i < last {
          assert rows[..last][i] == rows[i];
        }
      }
    }
  }

  /** The reply that repeats a stored outcome: `data` only for a success,
      carrying the row id as the vendor order id. */
  function ReplayOf(row: ExtOrder): (resp: ExtResponse)
    ensures resp.status == row.status && resp.error == row.error
    ensures resp.data.Some? <==> row.status == Success
    ensures resp.data.Some? ==> resp.data.value.vendorOrderId == row.id && resp.data.value.orderId == row.orderId
  {
    ExtResponse(row.status, row.error,
      if row.status == Success then Some(SuccessData(row.orderId, row.id, row.processedAt)) else None)
  }

  /** The fresh outcome of a draw: an error for draws below 10 (10% of
      `Intn(100)`), a success otherwise. */
  function DrawStatus(chance: nat): (s: ExtStatus)
    ensures s == Error <==> chance < 10
  {
    if chance < 10 then Error else Success
  }

  function ErrorText(s: ExtStatus): string {
    if s == Error then RandomErrorMessage else ""
  }

  /** `processOrder`; `toggle` is `EXTERNAL_IDEMPOTENCY_CHECK`. */
  function ProcessOrder(st: State, request: Request<FulfilmentRequest>, toggle: bool, env: Env): (r: (State, Reply<ExtResponse>))
    ensures !request.isPost ==> r.0 == st && r.1.Code() == StatusMethodNotAllowed
    ensures request.isPost && request.body.None? ==> r.0 == st && r.1.Code() == StatusBadRequest
    ensures request.isPost && request.body.Some? ==>
      var req := request.body.value;
      var replay := toggle && !env.lookupFails && FindFirst(st.rows, req.orderId).Some?;
      && (replay ==> r.0 == st && r.1 == Ok(ReplayOf(FindFirst(st.rows, req.orderId).value)))
      && (!replay && env.insertFails ==> r.0 == st && r.1.Code() == StatusInternalServerError)
      && (!replay && !env.insertFails ==>
            && r.1.Ok?
            && |r.0.rows| == |st.rows| + 1 && r.0.rows[..|st.rows|] == st.rows
            && var row := r.0.rows[|st.rows|];
            && row.id == env.insertId
            && row.orderId == req.orderId && row.destinationPhone == req.destinationPhone
            && row.amount == req.amount && row.processedAt == env.processedAt
            && row.status == r.1.body.status && row.error == r.1.body.error
            && (r.1.body.status == Error <==> env.chance < 10)
            && (r.1.body.status == Error ==> r.1.body.error == RandomErrorMessage && r.1.body.data.None?)
            && (r.1.body.status == Success ==>
                  r.1.body.error == "" && r.1.body.data == Some(SuccessData(req.orderId, row.id, env.respondedAt))))
  {
    if !request.isPost then (st, HttpError(StatusMethodNotAllowed, "Method not allowed"))
    else if request.body.None? then (st, HttpError(StatusBadRequest, "Invalid request body"))
    else
      var req := request.body.value;
      var existing := if toggle && !env.lookupFails then FindFirst(st.rows, req.orderId) else None;
      if existing.Some? then (st, Ok(ReplayOf(existing.value)))
      else
        var status := DrawStatus(env.chance);
        if env.insertFails then (st, HttpError(StatusInternalServerError, "Internal server error"))
        else
          var id := env.insertId;
          var row := ExtOrder(id, req.orderId, req.destinationPhone, req.amount, status, ErrorText(status), env.processedAt);
          var data := if status == Success then Some(SuccessData(req.orderId, id, env.respondedAt)) else None;
          (State(st.rows + [row]), Ok(ExtResponse(status, ErrorText(status), data)))
  }

  /** Calls processed one after the other, all POST with a decodable body
      and no storage faults; returns the final state and the replies. */
  function CallAll(st: State, reqs: seq<FulfilmentRequest>, toggle: bool, envs: seq<Env>): (r: (State, seq<Reply<ExtResponse>>))
    requires |reqs| == |envs|
    requires forall i :: 0 <= i < |envs| ==> !envs[i].lookupFails && !envs[i].insertFails
    ensures |st.rows| <= |r.0.rows| <= |st.rows| + |reqs| && r.0.rows[..|st.rows|] == st.rows
    ensures |r.1| == |reqs| && forall i :: 0 <= i < |r.1| ==> r.1[i].Ok?
    decreases |reqs|
  {
    if |reqs| == 0 then (st, [])
    else
      var (next, reply) := ProcessOrder(st, Request(true, Some(reqs[0])), toggle, envs[0]);
      var (last, replies) := CallAll(next, reqs[1..], toggle, envs[1..]);
      assert last.rows[..|st.rows|] == last.rows[..|next.rows|][..|st.rows|];
      (last, [reply] + replies)
  }

  predicate NoFaults(envs: seq<Env>) {
    forall i :: 0 <= i < |envs| ==> !envs[i].lookupFails && !envs[i].insertFails
  }

  predicate AllFor(reqs: seq<FulfilmentRequest>, orderId: string) {
    forall i :: 0 <= i < |reqs| ==> reqs[i].orderId == orderId
  }

  /** With a stored row and the check on, every further call replays that
      row and inserts nothing. */
  lemma {:induction false} ReplaysStoredRow(st: State, reqs: seq<FulfilmentRequest>, envs: seq<Env>, orderId: string)
    requires |reqs| == |envs| && NoFaults(envs) && AllFor(reqs, orderId)
    requires FindFirst(st.rows, orderId).Some?
    ensures CallAll(st, reqs, true, envs).0 == st
    ensures forall i :: 0 <= i < |reqs| ==> CallAll(st, reqs, true, envs).1[i] == Ok(ReplayOf(FindFirst(st.rows, orderId).value))
    decreases |reqs|
  {
    if |reqs| > 0 {
      assert AllFor(reqs[1..], orderId) && NoFaults(envs[1..]);
      ReplaysStoredRow(st, reqs[1..], envs[1..], orderId);
    }
  }

  /** A replay depends on the stored row only: the draw, the clocks and the
      insert's fate do not matter, because none of them is reached. */
  lemma ReplayIgnoresDraw(st: State, req: FulfilmentRequest, e1: Env, e2: Env)
    requires !e1.lookupFails && !e2.lookupFails
    requires FindFirst(st.rows, req.orderId).Some?
    ensures ProcessOrder(st, Request(true, Some(req)), true, e1) == ProcessOrder(st, Request(true, Some(req)), true, e2)
  {
  }

  /** With the check on, sequential calls for an order that has no row insert
      exactly one row, and every later call returns the first call's status,
      error and vendor order id. */
  lemma {:induction false} ToggleOnOneRowAndReplay(st: State, reqs: seq<FulfilmentRequest>, envs: seq<Env>, orderId: string)
    requires |reqs| == |envs| && |reqs| > 0 && NoFaults(envs) && AllFor(reqs, orderId)
    requires RowCount(st.rows, orderId) == 0
    ensures var (end, replies) := CallAll(st, reqs, true, envs);
      && RowCount(end.rows, orderId) == 1
      && replies[0].Ok?
      && forall i :: 0 < i < |replies| ==>
           && replies[i].Ok?
           && replies[i].body.status == replies[0].body.status
           && replies[i].body.error == replies[0].body.error
           && (replies[i].body.data.Some? <==> replies[0].body.data.Some?)
           && (replies[i].body.data.Some? ==> replies[i].body.data.value.vendorOrderId == replies[0].body.data.value.vendorOrderId)
  {
    RowCountZero(st.rows, orderId);
    var (next, first) := ProcessOrder(st, Request(true, Some(reqs[0])), true, envs[0]);
    var row := next.rows[|st.rows|];
    assert next.rows == st.rows + [row];
    RowCountAppend(st.rows, row, orderId);
    FindFirstAfterAppend(st.rows, row, orderId);
    assert AllFor(reqs[1..], orderId) && NoFaults(envs[1..]);
    ReplaysStoredRow(next, reqs[1..], envs[1..], orderId);
    var (end, rest) := CallAll(next, reqs[1..], true, envs[1..]);
    assert CallAll(st, reqs, true, envs) == (end, [first] + rest);
  }

  lemma FindFirstAfterAppend(rows: seq<ExtOrder>, row: ExtOrder, orderId: string)
    requires FindFirst(rows, orderId).None? && row.orderId == orderId
    ensures FindFirst(rows + [row], orderId) == Some(row)
    decreases |rows|
  {
    if |rows| > 0 {
      assert (rows + [row])[1..] == rows[1..] + [row];
      FindFirstAfterAppend(rows[1..], row, orderId);
    }
  }

  /** With the check off, every call inserts its own row: the order's row
      count grows by one per call. */
  lemma {:induction false} ToggleOffRowPerCall(st: State, reqs: seq<FulfilmentRequest>, envs: seq<Env>, orderId: string)
    requires |reqs| == |envs| && NoFaults(envs) && AllFor(reqs, orderId)
    ensures RowCount(CallAll(st, reqs, false, envs).0.rows, orderId) == RowCount(st.rows, orderId) + |reqs|
    decreases |reqs|
  {
    if |reqs| > 0 {
      var (next, first) := ProcessOrder(st, Request(true, Some(reqs[0])), false, envs[0]);
      var row := next.rows[|st.rows|];
      assert next.rows == st.rows + [row];
      RowCountAppend(st.rows, row, orderId);
      assert AllFor(reqs[1..], orderId) && NoFaults(envs[1..]);
      ToggleOffRowPerCall(next, reqs[1..], envs[1..], orderId);
    }
  }

  /** The idempotency lookup fails open: with the check on and a row already
      stored for the order, a lookup error falls through to a fresh draw, and
      a successful INSERT stores a second row for the same order. */
  lemma LookupFailureFailsOpen(st: State, req: FulfilmentRequest, env: Env)
    requires FindFirst(st.rows, req.orderId).Some?
    requires env.lookupFails && !env.insertFails
    ensures var (next, reply) := ProcessOrder(st, Request(true, Some(req)), true, env);
      && reply.Ok?
      && (reply.body.status == Error <==> env.chance < 10)
      && RowCount(next.rows, req.orderId) == RowCount(st.rows, req.orderId) + 1
      && RowCount(next.rows, req.orderId) >= 2
  {
    var (next, reply) := ProcessOrder(st, Request(true, Some(req)), true, env);
    var row := next.rows[|st.rows|];
    assert next.rows == st.rows + [row];
    RowCountAppend(st.rows, row, req.orderId);
    RowCountZero(st.rows, req.orderId);
  }

  /** With the check off, two calls for one order can disagree: an error
      draw followed by a success draw. */
  lemma ToggleOffOutcomesDiffer(st: State, req: FulfilmentRequest, e1: Env, e2: Env)
    requires NoFaults([e1, e2]) && e1.chance < 10 && e2.chance >= 10
    ensures var (end, replies) := CallAll(st, [req, req], false, [e1, e2]);
      replies[0].Ok? && replies[1].Ok? && replies[0].body.status == Error && replies[1].body.status == Success
  {
    var (next, r1) := ProcessOrder(st, Request(true, Some(req)), false, e1);
    var (last, r2) := ProcessOrder(next, Request(true, Some(req)), false, e2);
    assert [req, req][1..] == [req];
    assert [e1, e2][1..] == [e2];
    assert CallAll(st, [req, req], false, [e1, e2]).1 == [r1] + CallAll(next, [req], false, [e2]).1;
  }
}

=== FILE: harness.dfy ===
/** The simulation harness (tooling/main.go): the static split of the
    iterations over four workers, one iteration's create-then-pay retry loop,
    the classification of a payment call, `truncateString`, and the totals
    of the two settlement reports. The pauses between payment attempts are
    counted, not timed; the pause between creating and paying an order
    (tooling/main.go:137) only delays the first call and is not modelled. */
module Harness {
  import opened Base
  import opened Models

  // ---------------------------------------------------------------------
  // Classification of one payment call (triggerPayment, IsTimeoutError)

  /** `IsTimeoutError` on a non-nil error: its text contains "timeout". */
  predicate IsTimeoutError(message: string) {
    Contains(message, "timeout")
  }

  /** What the POST to the payment service returned. */
  datatype PaymentCall = Transport(message: string) | Status(code: nat)

  const StatusErrorPrefix: string := "payment service returned status: "

  /** `%d` of a non-negative number. */
  function Decimal(n: nat): (s: string)
    ensures |s| >= 1 && AllDigits(s)
    decreases n
  {
    var last := [(('0' as int) + n % 10) as char];
    if n < 10 then last else Decimal(n / 10) + last
  }

  /** The printed status code reads back as the code. */
  lemma {:induction false} DecimalRoundTrip(n: nat)
    ensures DigitsValue(Decimal(n)) == n
    decreases n
  {
    if n >= 10 {
      DecimalRoundTrip(n / 10);
      var s := Decimal(n);
      assert s[..|s| - 1] == Decimal(n / 10);
    }
  }

  /** `triggerPayment`'s error: None for HTTP 200; "timeout" for a transport
      error whose text contains "timeout"; any other transport error as is;
      a status error for any other code. */
  function TriggerPaymentError(call: PaymentCall): (e: Option<string>)
    ensures e.None? <==> call == Status(StatusOK)
    ensures call.Transport? && IsTimeoutError(call.message) ==> e == Some("timeout")
    ensures call.Transport? && !IsTimeoutError(call.message) ==> e == Some(call.message)
    ensures call.Status? && call.code != StatusOK ==>
      e.Some? && |e.value| > |StatusErrorPrefix| && e.value[..|StatusErrorPrefix|] == StatusErrorPrefix
      && AllDigits(e.value[|StatusErrorPrefix|..]) && DigitsValue(e.value[|StatusErrorPrefix|..]) == call.code
  {
    match call
    case Transport(message) =>
      if IsTimeoutError(message) then Some("timeout") else Some(message)
    case Status(code) =>
      if code != StatusOK then
        var text := StatusErrorPrefix + Decimal(code);
        assert text[|StatusErrorPrefix|..] == Decimal(code);
        DecimalRoundTrip(code);
        Some(text)
      else None
  }

  /** The retry loop's test on an error: `strings.Contains(err.Error(), "timeout")`. */
  predicate IsTimeout(e: Option<string>) {
    e.Some? && IsTimeoutError(e.value)
  }

  lemma NeedleCharInHay(hay: string, needle: string, k: nat)
    requires Contains(hay, needle) && k < |needle|
    ensures needle[k] in hay
    decreases |hay|
  {
    if hay[..|needle|] == needle {
      assert hay[k] == needle[k];
    } else {
      NeedleCharInHay(hay[1..], needle, k);
    }
  }

  lemma NoLetterOInStatusError(digits: string)
    requires AllDigits(digits)
    ensures 'o' !in StatusErrorPrefix + digits
  {
  }

  /** The loop retries exactly the calls that ended in a transport error
      mentioning "timeout": a status error never reads as a timeout. */
  lemma TimeoutClassification(call: PaymentCall)
    ensures IsTimeout(TriggerPaymentError(call)) <==> call.Transport? && IsTimeoutError(call.message)
  {
    if call.Status? && call.code != StatusOK {
      var e := TriggerPaymentError(call).value;
      var digits := e[|StatusErrorPrefix|..];
      assert e == StatusErrorPrefix + digits;
      NoLetterOInStatusError(digits);
      var t := "timeout";
      assert t[4] == 'o';
      if Contains(e, t) {
        NeedleCharInHay(e, t, 4);
      }
    } else if call.Transport? && IsTimeoutError(call.message) {
      var t := "timeout";
      assert t[..|t|] == t;
    }
  }

  // ---------------------------------------------------------------------
  // One iteration (runSimulationIteration)

  const MaxAttempts: nat := 3

  /** What `createOrder` returned to the harness. */
  datatype Created = Created(order: CreateOrderResponse) | CreateError(message: string)

  /** The lines one iteration sends to the results channel. */
  datatype Line =
    | CreateFailed(iteration: nat, error: string)
    | PaymentSucceeded(iteration: nat, orderId: string, amount: int)
    | TimedOut(iteration: nat, orderId: string)
    | PaymentFailed(iteration: nat, error: string)
    | OrderFailed(iteration: nat, orderId: string)

  /** What an iteration reports, given what it met: a failed creation
      reports once and pays nothing; otherwise every attempt but the last
      timed out, the loop stopped early only on a non-timeout, and the last
      attempt's outcome picks the lines. */
  predicate Reported(iteration: nat, created: Created, outcomes: seq<Option<string>>, lines: seq<Line>, attempts: nat)
    requires |outcomes| >= MaxAttempts
  {
    match created
    case CreateError(message) => lines == [CreateFailed(iteration, message)] && attempts == 0
    case Created(o) =>
      && 1 <= attempts <= MaxAttempts
      && (forall k :: 0 <= k < attempts - 1 ==> IsTimeout(outcomes[k]))
      && var last := outcomes[attempts - 1];
      && (attempts < MaxAttempts ==> !IsTimeout(last))
      && (last.None? ==> lines == [PaymentSucceeded(iteration, o.id, o.total)])
      && (IsTimeout(last) ==> lines == [TimedOut(iteration, o.id), OrderFailed(iteration, o.id)])
      && (last.Some? && !IsTimeout(last) ==> lines == [PaymentFailed(iteration, last.value), OrderFailed(iteration, o.id)])
  }

  /** `runSimulationIteration`: `outcomes[k]` is the error the k-th payment
      call would return (None for success). Returns the lines emitted, the
      number of payment calls made and the number of inter-attempt sleeps. */
  method RunIteration(iteration: nat, created: Created, outcomes: seq<Option<string>>)
    returns (lines: seq<Line>, attempts: nat, pauses: nat)
    requires |outcomes| >= MaxAttempts
    ensures Reported(iteration, created, outcomes, lines, attempts)
    ensures pauses == if attempts == 0 then 0 else attempts - 1
  {
    lines, attempts, pauses := [], 0, 0;
    if created.CreateError? {
      lines := [CreateFailed(iteration, created.message)];
      return;
    }
    var o := created.order;
    var success := false;
    var retry := 0;
    while retry < MaxAttempts
      invariant 0 <= retry <= MaxAttempts
      invariant attempts == retry && !success
      invariant pauses == if retry == 0 then 0 else retry - 1
      invariant forall k :: 0 <= k < retry ==> IsTimeout(outcomes[k])
      invariant lines == if retry == MaxAttempts then [TimedOut(iteration, o.id)] else []
    {
      if retry > 0 {
        pauses := pauses + 1;
      }
      var err := outcomes[retry];
      attempts := attempts + 1;
      if err.None? {
        success := true;
        lines := lines + [PaymentSucceeded(iteration, o.id, o.total)];
        break;
      }
      if IsTimeoutError(err.value) {
        if retry == MaxAttempts - 1 {
          lines := lines + [TimedOut(iteration, o.id)];
        }
      } else {
        lines := lines + [PaymentFailed(iteration, err.value)];
        break;
      }
      retry := retry + 1;
    }
    if !success {
      lines := lines + [OrderFailed(iteration, o.id)];
    }
  }

  /** A payment call that always times out is made exactly three times,
      with a sleep only between attempts, and the iteration reports a timeout. */
  method AlwaysTimingOut(iteration: nat, order: CreateOrderResponse, message: string)
    returns (lines: seq<Line>, attempts: nat, pauses: nat)
    requires IsTimeoutError(message)
    ensures attempts == 3 && pauses == 2
    ensures lines == [TimedOut(iteration, order.id), OrderFailed(iteration, order.id)]
  {
    lines, attempts, pauses := RunIteration(iteration, Created(order), [Some(message), Some(message), Some(message)]);
  }

  // ---------------------------------------------------------------------
  // The four-worker split (runSimulator)

  const Workers: nat := 4

  /** `count / 4`, rounded up. */
  function ChunkSize(count: nat): (c: nat)
    ensures Workers * c >= count && (count > 0 ==> c > 0)
    ensures c * Workers < count + Workers
  {
    count / Workers + (if count % Workers != 0 then 1 else 0)
  }

  /** Iteration numbers k+1 for lo <= k < hi. */
  function Numbers(lo: nat, hi: nat): (s: seq<nat>)
    requires lo <= hi
    ensures |s| == hi - lo
    ensures forall k :: 0 <= k < |s| ==> s[k] == lo + k + 1
  {
    seq(hi - lo, k requires 0 <= k < hi - lo => lo + k + 1)
  }

  /** The iteration numbers worker `i` runs, as the goroutine's loop bounds give them. */
  function WorkerIterations(count: nat, i: nat): seq<nat> {
    var start := i * ChunkSize(count);
    var end := if start + ChunkSize(count) > count then count else start + ChunkSize(count);
    if start < end then Numbers(start, end) else []
  }

  /** All iterations, worker by worker. */
  function Schedule(count: nat): seq<nat> {
    WorkerIterations(count, 0) + WorkerIterations(count, 1) + WorkerIterations(count, 2) + WorkerIterations(count, 3)
  }

  function Min(a: nat, b: nat): nat {
    if a < b then a else b
  }

  /** Worker `i` covers the clipped range [min(i*c, count), min((i+1)*c, count)). */
  lemma WorkerRange(count: nat, i: nat)
    ensures Min(i * ChunkSize(count), count) <= Min((i + 1) * ChunkSize(count), count)
    ensures WorkerIterations(count, i) == Numbers(Min(i * ChunkSize(count), count), Min((i + 1) * ChunkSize(count), count))
  {
    var c := ChunkSize(count);
    assert (i + 1) * c == i * c + c;
  }

  lemma NumbersConcat(a: nat, b: nat, c: nat)
    requires a <= b <= c
    ensures Numbers(a, b) + Numbers(b, c) == Numbers(a, c)
  {
  }

  /** Each iteration number 1..count is run exactly once, and the workers
      together run them in order. */
  lemma ScheduleRunsEachOnce(count: nat)
    ensures Schedule(count) == Numbers(0, count)
  {
    var c := ChunkSize(count);
    assert Workers * c >= count;
    WorkerRange(count, 0);
    WorkerRange(count, 1);
    WorkerRange(count, 2);
    WorkerRange(count, 3);
    var b1, b2, b3 := Min(c, count), Min(2 * c, count), Min(3 * c, count);
    assert Min(4 * c, count) == count;
    NumbersConcat(0, b1, b2);
    NumbersConcat(0, b2, b3);
    NumbersConcat(0, b3, count);
  }

  /** Iteration index j (0-based) belongs to worker j / c and to no other. */
  lemma WorkerOfIndex(count: nat, j: nat, i: nat)
    requires j < count && i < Workers
    ensures var c := ChunkSize(count);
      (i * c <= j < Min((i + 1) * c, count)) <==> i == j / c
  {
    var c := ChunkSize(count);
    assert (i + 1) * c == i * c + c;
    if i * c <= j < i * c + c {
      DivUnique(j, c, i);
    }
    if i == j / c {
      DivBounds(j, c);
    }
  }

  /** `j / c` is the only q with q*c <= j < q*c + c. */
  lemma DivUnique(j: nat, c: nat, q: nat)
    requires c > 0 && q * c <= j < q * c + c
    ensures j / c == q
  {
    DivAtLeast(j, c, q);
    DivAtMost(j, c, q);
  }

  lemma DivAtLeast(j: nat, c: nat, q: nat)
    requires c > 0 && q * c <= j
    ensures j / c >= q
  {
    var d: nat := j / c;
    DivBounds(j, c);
    assert (d + 1) * c == d * c + c;
    MulCancelLess(q, d + 1, c);
  }

  lemma DivAtMost(j: nat, c: nat, q: nat)
    requires c > 0 && j < q * c + c
    ensures j / c <= q
  {
    var d: nat := j / c;
    DivBounds(j, c);
    assert (q + 1) * c == q * c + c;
    MulCancelLess(d, q + 1, c);
  }

  lemma MulCancelLess(a: nat, b: nat, c: nat)
    requires a * c < b * c
    ensures a < b
  {
    if a >= b {
      MulMonotone(b, a, c);
    }
  }

  lemma DivBounds(j: nat, c: nat)
    requires c > 0
    ensures (j / c) * c <= j < (j / c) * c + c
  {
  }

  lemma MulMonotone(a: nat, b: nat, c: nat)
    requires a <= b
    ensures a * c <= b * c
  {
  }

  // ---------------------------------------------------------------------
  // Counting the results (runSimulator)

  /** The iteration reaches a successful payment call within the attempts. */
  predicate IterationSucceeds(created: Created, outcomes: seq<Option<string>>)
    requires |outcomes| >= MaxAttempts
  {
    created.Created? &&
    exists k :: 0 <= k < MaxAttempts && outcomes[k].None? && forall j :: 0 <= j < k ==> IsTimeout(outcomes[j])
  }

  /** An iteration times out when its order was created and every one of
      its three payment calls timed out. */
  predicate IterationTimesOut(created: Created, outcomes: seq<Option<string>>)
    requires |outcomes| >= MaxAttempts
  {
    created.Created? && forall k :: 0 <= k < MaxAttempts ==> IsTimeout(outcomes[k])
  }

  function SuccessLines(lines: seq<Line>): nat
    decreases |lines|
  {
    if |lines| == 0 then 0
    else SuccessLines(lines[..|lines| - 1]) + (if lines[|lines| - 1].PaymentSucceeded? then 1 else 0)
  }

  function TimeoutLines(lines: seq<Line>): nat
    decreases |lines|
  {
    if |lines| == 0 then 0
    else TimeoutLines(lines[..|lines| - 1]) + (if lines[|lines| - 1].TimedOut? then 1 else 0)
  }

  lemma {:induction false} LinesAppend(a: seq<Line>, b: seq<Line>)
    ensures SuccessLines(a + b) == SuccessLines(a) + SuccessLines(b)
    ensures TimeoutLines(a + b) == TimeoutLines(a) + TimeoutLines(b)
    decreases |b|
  {
    if |b| > 0 {
      var last := |b| - 1;
      assert (a + b)[..|a + b| - 1] == a + b[..last];
      assert (a + b)[|a + b| - 1] == b[last];
      LinesAppend(a, b[..last]);
    } else {
      assert a + b == a;
    }
  }

  /** Number of iterations among the first n that succeed. */
  function Successes(created: seq<Created>, outcomes: seq<seq<Option<string>>>, n: nat): nat
    requires n <= |created| && n <= |outcomes|
    requires forall i :: 0 <= i < |outcomes| ==> |outcomes[i]| >= MaxAttempts
    decreases n
  {
    if n == 0 then 0
    else Successes(created, outcomes, n - 1) + (if IterationSucceeds(created[n - 1], outcomes[n - 1]) then 1 else 0)
  }

  /** Number of iterations among the first n that time out. */
  function Timeouts(created: seq<Created>, outcomes: seq<seq<Option<string>>>, n: nat): nat
    requires n <= |created| && n <= |outcomes|
    requires forall i :: 0 <= i < |outcomes| ==> |outcomes[i]| >= MaxAttempts
    decreases n
  {
    if n == 0 then 0
    else Timeouts(created, outcomes, n - 1) + (if IterationTimesOut(created[n - 1], outcomes[n - 1]) then 1 else 0)
  }

  /** `runSimulator` run worker after worker: `created[j]` and `outcomes[j]`
      are what iteration j+1 meets. The tally counts one success per
      succeeding iteration and one timeout per iteration whose three calls
      all timed out, and together they never exceed the number of iterations. */
  method RunSimulator(count: nat, created: seq<Created>, outcomes: seq<seq<Option<string>>>)
    returns (lines: seq<Line>, successCount: nat, timeoutCount: nat)
    requires |created| == count && |outcomes| == count
    requires forall i :: 0 <= i < count ==> |outcomes[i]| >= MaxAttempts
    ensures successCount == SuccessLines(lines) && timeoutCount == TimeoutLines(lines)
    ensures successCount == Successes(created, outcomes, count)
    ensures timeoutCount == Timeouts(created, outcomes, count)
    ensures successCount + timeoutCount <= count
  {
    var schedule := Schedule(count);
    ScheduleRunsEachOnce(count);
    lines, successCount, timeoutCount := [], 0, 0;
    var n := 0;
    while n < |schedule|
      invariant 0 <= n <= count
      invariant successCount == SuccessLines(lines) && timeoutCount == TimeoutLines(lines)
      invariant successCount == Successes(created, outcomes, n)
      invariant timeoutCount == Timeouts(created, outcomes, n)
      invariant successCount + timeoutCount <= n
    {
      var iteration := schedule[n];
      var emitted, attempts, pauses := RunIteration(iteration, created[n], outcomes[n]);
      IterationTally(iteration, created[n], outcomes[n], emitted, attempts);
      LinesAppend(lines, emitted);
      lines := lines + emitted;
      successCount := successCount + SuccessLines(emitted);
      timeoutCount := timeoutCount + TimeoutLines(emitted);
      n := n + 1;
    }
  }

  /** One iteration reports one success exactly when it succeeds, one
      timeout exactly when all three calls timed out, and at most one
      success-or-timeout line. */
  lemma IterationTally(iteration: nat, created: Created, outcomes: seq<Option<string>>, lines: seq<Line>, attempts: nat)
    requires |outcomes| >= MaxAttempts
    requires Reported(iteration, created, outcomes, lines, attempts)
    ensures SuccessLines(lines) == if IterationSucceeds(created, outcomes) then 1 else 0
    ensures TimeoutLines(lines) == if IterationTimesOut(created, outcomes) then 1 else 0
    ensures SuccessLines(lines) + TimeoutLines(lines) <= 1
  {
    if created.Created? {
      if IterationTimesOut(created, outcomes) {
        assert attempts == MaxAttempts;
      }
      if IterationSucceeds(created, outcomes) {
        var k :| 0 <= k < MaxAttempts && outcomes[k].None? && forall j :: 0 <= j < k ==> IsTimeout(outcomes[j]);
        assert k == attempts - 1;
      }
      if |lines| == 2 {
        LinesAppend([lines[0]], [lines[1]]);
        assert lines == [lines[0]] + [lines[1]];
      }
    }
  }

  // ---------------------------------------------------------------------
  // truncateString

  /** `truncateString(s, maxLen)`. Go's slice `s[:maxLen-3]` panics when
      maxLen < 3 and the string is too long; that panic is None here. */
  function Truncate(s: string, maxLen: int): (r: Option<string>)
    ensures |s| <= maxLen ==> r == Some(s)
    ensures |s| > maxLen && maxLen < 3 ==> r.None?
    ensures |s| > maxLen && maxLen >= 3 ==>
      && r.Some? && |r.value| == maxLen
      && r.value[..maxLen - 3] == s[..maxLen - 3]
      && r.value[maxLen - 3..] == "..."
  {
    if |s| <= maxLen then Some(s)
    else if maxLen < 3 then None
    else Some(s[..maxLen - 3] + "...")
  }

  /** Truncating is idempotent and never yields more than maxLen characters. */
  lemma TruncateIdempotent(s: string, maxLen: int)
    requires Truncate(s, maxLen).Some?
    ensures |Truncate(s, maxLen).value| <= maxLen
    ensures Truncate(Truncate(s, maxLen).value, maxLen) == Truncate(s, maxLen)
  {
  }

  // ---------------------------------------------------------------------
  // Settlement totals (printExternalSettlement, printInternalSettlement)

  function AmountSum(rows: seq<ExtOrder>): int
    decreases |rows|
  {
    if |rows| == 0 then 0 else AmountSum(rows[..|rows| - 1]) + rows[|rows| - 1].amount
  }

  /** The rows with status "success", in order. */
  function SettledRows(rows: seq<ExtOrder>): seq<ExtOrder>
    decreases |rows|
  {
    if |rows| == 0 then []
    else SettledRows(rows[..|rows| - 1]) + (if rows[|rows| - 1].status == Success then [rows[|rows| - 1]] else [])
  }

  /** The remaining rows, in order. */
  function UnsettledRows(rows: seq<ExtOrder>): seq<ExtOrder>
    decreases |rows|
  {
    if |rows| == 0 then []
    else UnsettledRows(rows[..|rows| - 1]) + (if rows[|rows| - 1].status != Success then [rows[|rows| - 1]] else [])
  }

  lemma SumStep(prefix: seq<ExtOrder>, row: ExtOrder)
    ensures AmountSum(prefix + [row]) == AmountSum(prefix) + row.amount
  {
    assert (prefix + [row])[..|prefix|] == prefix;
  }

  lemma FilterStep(prefix: seq<ExtOrder>, row: ExtOrder)
    ensures SettledRows(prefix + [row]) == SettledRows(prefix) + (if row.status == Success then [row] else [])
    ensures UnsettledRows(prefix + [row]) == UnsettledRows(prefix) + (if row.status != Success then [row] else [])
  {
    assert (prefix + [row])[..|prefix|] == prefix;
  }

  /** The part of a row's amount that counts as settled. */
  function SettledPart(row: ExtOrder): int
  {
    if row.status == Success then row.amount else 0
  }

  lemma SettleStep(seen: seq<ExtOrder>, row: ExtOrder)
    ensures AmountSum(SettledRows(seen + [row])) == AmountSum(SettledRows(seen)) + SettledPart(row)
    ensures AmountSum(UnsettledRows(seen + [row])) == AmountSum(UnsettledRows(seen)) + (row.amount - SettledPart(row))
  {
    FilterStep(seen, row);
    if row.status == Success {
      SumStep(SettledRows(seen), row);
      assert UnsettledRows(seen + [row]) == UnsettledRows(seen);
    } else {
      SumStep(UnsettledRows(seen), row);
      assert SettledRows(seen + [row]) == SettledRows(seen);
    }
  }

  /** The external settlement loop: adds each row's amount to the settled
      total when its status is "success" and to the failed total otherwise. */
  method ExternalSettlement(rows: seq<ExtOrder>) returns (settled: int, failed: int)
    ensures settled == AmountSum(SettledRows(rows))
    ensures failed == AmountSum(UnsettledRows(rows))
  {
    settled, failed := 0, 0;
    var i := 0;
    while i < |rows|
      invariant 0 <= i <= |rows|
      invariant settled == AmountSum(SettledRows(rows[..i]))
      invariant settled + failed == AmountSum(rows[..i])
    {
      assert rows[..i + 1] == rows[..i] + [rows[i]];
      SettleStep(rows[..i], rows[i]);
      SumStep(rows[..i], rows[i]);
      settled := settled + SettledPart(rows[i]);
      failed := failed + (rows[i].amount - SettledPart(rows[i]));
      i := i + 1;
    }
    assert rows[..i] == rows;
    SettlementSplitsTotal(rows);
  }

  /** Settled plus failed is the sum over all rows: every row lands in
      exactly one of the two totals. */
  lemma {:induction false} SettlementSplitsTotal(rows: seq<ExtOrder>)
    ensures AmountSum(SettledRows(rows)) + AmountSum(UnsettledRows(rows)) == AmountSum(rows)
    decreases |rows|
  {
    if |rows| > 0 {
      var init, row := rows[..|rows| - 1], rows[|rows| - 1];
      assert rows == init + [row];
      FilterStep(init, row);
      SumStep(init, row);
      SettlementSplitsTotal(init);
      if row.status == Success {
        SumStep(SettledRows(init), row);
        assert UnsettledRows(init) + [] == UnsettledRows(init);
      } else {
        SumStep(UnsettledRows(init), row);
        assert SettledRows(init) + [] == SettledRows(init);
      }
    }
  }

  function TotalSum(orders: seq<Order>): int
    decreases |orders|
  {
    if |orders| == 0 then 0 else TotalSum(orders[..|orders| - 1]) + orders[|orders| - 1].total
  }

  /** The orders in status "fulfilment", in order. */
  function FulfilledOrders(orders: seq<Order>): seq<Order>
    decreases |orders|
  {
    if |orders| == 0 then []
    else FulfilledOrders(orders[..|orders| - 1]) + (if orders[|orders| - 1].status == Fulfilment then [orders[|orders| - 1]] else [])
  }

  lemma FulfilledStep(prefix: seq<Order>, o: Order)
    ensures o.status == Fulfilment ==> FulfilledOrders(prefix + [o]) == FulfilledOrders(prefix) + [o]
    ensures o.status != Fulfilment ==> FulfilledOrders(prefix + [o]) == FulfilledOrders(prefix)
    ensures TotalSum(prefix + [o]) == TotalSum(prefix) + o.total
  {
    assert (prefix + [o])[..|prefix|] == prefix;
    assert FulfilledOrders(prefix) + [] == FulfilledOrders(prefix);
  }

  /** The internal settlement loop: adds `total` of each order in status
      "fulfilment". */
  method InternalSettlement(orders: seq<Order>) returns (fulfilled: int)
    ensures fulfilled == TotalSum(FulfilledOrders(orders))
  {
    fulfilled := 0;
    var i := 0;
    while i < |orders|
      invariant 0 <= i <= |orders|
      invariant fulfilled == TotalSum(FulfilledOrders(orders[..i]))
    {
      assert orders[..i + 1] == orders[..i] + [orders[i]];
      FulfilledStep(orders[..i], orders[i]);
      if orders[i].status == Fulfilment {
        FulfilledStep(FulfilledOrders(orders[..i]), orders[i]);
        fulfilled := fulfilled + orders[i].total;
      }
      i := i + 1;
    }
    assert orders[..i] == orders;
  }

  /** With non-negative totals, the fulfilled total is at most the total of
      all orders, and equals it exactly when every order is fulfilled. */
  lemma {:induction false} FulfilledBounded(orders: seq<Order>)
    requires forall i :: 0 <= i < |orders| ==> orders[i].total >= 0
    ensures 0 <= TotalSum(FulfilledOrders(orders)) <= TotalSum(orders)
    ensures (forall i :: 0 <= i < |orders| ==> orders[i].status == Fulfilment) ==> FulfilledOrders(orders) == orders
    decreases |orders|
  {
    if |orders| > 0 {
      var init, o := orders[..|orders| - 1], orders[|orders| - 1];
      assert orders == init + [o];
      FulfilledStep(init, o);
      FulfilledBounded(init);
      if o.status == Fulfilment {
        FulfilledStep(FulfilledOrders(init), o);
      }
      assert init + [o] == orders;
    }
  }
}

=== FILE: models.dfy ===
/** The records the services store and exchange (pkg/models/order.go).
    Timestamps are plain integers: the clock is an input of the model. */
module Models {
  import opened Base

  /** The three mobile operators an order can be for. */
  datatype Operator = Indosat | Xl | Three

  /** Values of `internal_orders.status`. `Completed` and `Failed` are
      declared but no operation of the pipeline ever assigns them. */
  datatype OrderStatus = Pending | Paid | Fulfilment | Completed | Failed

  /** A row of `internal_orders`. */
  datatype Order = Order(
    id: string,
    amount: int,
    adminFee: int,
    kind: string,
    operator: Operator,
    destinationPhone: string,
    total: int,
    status: OrderStatus,
    createdAt: int)

  /** The body returned by the create-order endpoint. */
  datatype CreateOrderResponse = CreateOrderResponse(
    id: string,
    status: OrderStatus,
    amount: int,
    adminFee: int,
    total: int,
    operator: Operator,
    destinationPhone: string)

  /** The body of a trigger-payment request. */
  datatype PaymentRequest = PaymentRequest(orderId: string, paidAmount: int, correlationId: string)

  /** The body of the payment service's success reply. */
  datatype PaymentResponse = PaymentResponse(status: string)

  /** The event published on the `payment.paid` subject. */
  datatype PaymentPaidMessage = PaymentPaidMessage(
    orderId: string,
    paidAmount: int,
    paidAt: int,
    correlationId: string)

  /** The body the order service sends to the external fulfilment service. */
  datatype FulfilmentRequest = FulfilmentRequest(
    orderId: string,
    destinationPhone: string,
    amount: int,
    correlationId: string)

  /** The two outcomes the external fulfilment service ever stores. */
  datatype ExtStatus = Success | Error

  /** The `data` object of a successful fulfilment reply. */
  datatype SuccessData = SuccessData(orderId: string, vendorOrderId: int, processedAt: int)

  /** The external fulfilment service's reply body; `data` is null unless the status is success. */
  datatype ExtResponse = ExtResponse(status: ExtStatus, error: string, data: Option<SuccessData>)

  /** A row of `ext_orders`; `id` is the auto-increment key. */
  datatype ExtOrder = ExtOrder(
    id: int,
    orderId: string,
    destinationPhone: string,
    amount: int,
    status: ExtStatus,
    error: string,
    processedAt: int)

  /** A row of `internal_payments`, keyed by order id in the model's map. */
  datatype Payment = Payment(paidAmount: int, paidAt: int)

  /** The JSON snapshot kept in a fulfilment attempt row: the placeholder the
      payment handler writes, or the full request a dispatch sends. */
  datatype Payload =
    | PaidNotice(orderId: string, amount: int, destinationPhone: string)
    | Dispatched(request: FulfilmentRequest)

  /** A row of `fulfillment_attempts`. */
  datatype Attempt = Attempt(orderId: string, attemptNumber: int, payload: Payload)
}

=== FILE: order_gen.dfy ===
/** Random order synthesis and the publish-multiplicity draw
    (pkg/utils/order.go). The three `UnixNano` clock reads and the
    `Intn(100)` draw are parameters; the UUIDv7 id is an opaque input. */
module OrderGen {
  import opened Base
  import opened Models

  /** The operator picked by a clock reading: `operators[n % 3]`. */
  function OperatorAt(n: nat): Operator {
    [Indosat, Xl, Three][n % 3]
  }

  /** The fixed admin fee of an operator. */
  function AdminFee(op: Operator): int {
    match op
    case Indosat => 100
    case Xl => 200
    case Three => 300
  }

  /** The amount picked by a clock reading: `amounts[n % 9]`. */
  function AmountAt(n: nat): int {
    [1000, 2000, 3000, 4000, 5000, 6000, 7000, 8000, 9000][n % 9]
  }

  /** The operator-specific phone prefix. */
  function PhonePrefix(op: Operator): string {
    match op
    case Indosat => "0815-000-00"
    case Xl => "0817-000-00"
    case Three => "0896-000-00"
  }

  /** `fmt.Sprintf("%02d", k)` for 0 <= k < 100. */
  function TwoDigits(k: nat): (s: string)
    requires k < 100
    ensures |s| == 2 && AllDigits(s)
  {
    [(('0' as int) + k / 10) as char, (('0' as int) + k % 10) as char]
  }

  /** The phone suffix picked by a clock reading: `(n % 99) + 1`, zero-padded. */
  function PhoneSuffix(n: nat): string {
    TwoDigits(n % 99 + 1)
  }

  /** `GenerateRandomOrder`: `nOperator`, `nAmount` and `nPhone` are the three
      clock reads, `id` the generated UUID, `createdAt` the final `time.Now()`. */
  function GenerateRandomOrder(id: string, nOperator: nat, nAmount: nat, nPhone: nat, createdAt: int): (o: Order)
    ensures o.id == id && o.createdAt == createdAt
    ensures o.operator == OperatorAt(nOperator)
    ensures o.adminFee == AdminFee(o.operator)
    ensures o.total == o.amount + o.adminFee
    ensures o.amount == 1000 * (nAmount % 9 + 1)
    ensures 1000 <= o.amount <= 9000 && o.amount % 1000 == 0
    ensures |o.destinationPhone| == 13
    ensures o.destinationPhone[..11] == PhonePrefix(o.operator)
    ensures AllDigits(o.destinationPhone[11..])
    ensures DigitsValue(o.destinationPhone[11..]) == nPhone % 99 + 1
    ensures o.status == Pending && o.kind == "phone_credit"
  {
    var operator := OperatorAt(nOperator);
    var fee := AdminFee(operator);
    var amount := AmountAt(nAmount);
    var suffix := PhoneSuffix(nPhone);
    TwoDigitsRoundTrip(nPhone % 99 + 1);
    AmountAtClosedForm(nAmount);
    var phone := PhonePrefix(operator) + suffix;
    assert phone[11..] == suffix;
    Order(id, amount, fee, "phone_credit", operator, phone, amount + fee, Pending, createdAt)
  }

  /** Reading the two zero-padded digits back yields the number printed. */
  lemma TwoDigitsRoundTrip(k: nat)
    requires k < 100
    ensures DigitsValue(TwoDigits(k)) == k
  {
    var s := TwoDigits(k);
    var first := s[..1];
    assert first[..0] == [];
    assert DigitsValue(first) == k / 10;
    assert s[..|s| - 1] == first;
  }

  /** The amount table is the arithmetic progression `1000 * ((n % 9) + 1)`. */
  lemma AmountAtClosedForm(n: nat)
    ensures AmountAt(n) == 1000 * (n % 9 + 1)
  {
    var i := n % 9;
    assert 0 <= i < 9;
    if i == 0 {} else if i == 1 {} else if i == 2 {} else if i == 3 {}
    else if i == 4 {} else if i == 5 {} else if i == 6 {} else if i == 7 {} else {}
  }

  /** The admin fee identifies the operator, and it is one of 100, 200, 300. */
  lemma AdminFeeDeterminesOperator(a: Operator, b: Operator)
    ensures AdminFee(a) in {100, 200, 300}
    ensures AdminFee(a) == AdminFee(b) <==> a == b
  {
  }

  /** The operator index is the clock reading modulo 3. */
  lemma OperatorAtIndex(n: nat)
    ensures n % 3 == 0 <==> OperatorAt(n) == Indosat
    ensures n % 3 == 1 <==> OperatorAt(n) == Xl
    ensures n % 3 == 2 <==> OperatorAt(n) == Three
  {
  }

  /** `DeterminePublishCount` for a draw `chance` of `Intn(100)`. */
  function DeterminePublishCount(chance: nat): (c: nat)
    ensures 1 <= c <= 3
  {
    if chance < 70 then 1
    else if chance < 90 then 2
    else 3
  }

  /** The draw bands of `DeterminePublishCount`: [0,70) gives one copy,
      [70,90) two, and every larger draw three. */
  lemma PublishCountBands(chance: nat)
    ensures DeterminePublishCount(chance) == 1 <==> chance < 70
    ensures DeterminePublishCount(chance) == 2 <==> 70 <= chance < 90
    ensures DeterminePublishCount(chance) == 3 <==> 90 <= chance
  {
  }

  /** How many draws in [lo, hi) yield `k` copies. */
  function CountIn(k: nat, lo: nat, hi: nat): nat
    decreases hi
  {
    if hi <= lo then 0
    else CountIn(k, lo, hi - 1) + (if DeterminePublishCount(hi - 1) == k then 1 else 0)
  }

  lemma {:induction false} CountInSplit(k: nat, lo: nat, mid: nat, hi: nat)
    requires lo <= mid <= hi
    ensures CountIn(k, lo, hi) == CountIn(k, lo, mid) + CountIn(k, mid, hi)
    decreases hi
  {
    if hi > mid {
      CountInSplit(k, lo, mid, hi - 1);
    }
  }

  lemma {:induction false} CountInUniform(k: nat, lo: nat, hi: nat)
    requires lo <= hi
    requires forall c :: lo <= c < hi ==> DeterminePublishCount(c) == k
    ensures CountIn(k, lo, hi) == hi - lo
    decreases hi
  {
    if hi > lo {
      CountInUniform(k, lo, hi - 1);
    }
  }

  lemma {:induction false} CountInNone(k: nat, lo: nat, hi: nat)
    requires forall c :: lo <= c < hi ==> DeterminePublishCount(c) != k
    ensures CountIn(k, lo, hi) == 0
    decreases hi
  {
    if hi > lo {
      CountInNone(k, lo, hi - 1);
    }
  }

  /** Seventy of the 100 equally likely draws publish exactly once (70%). */
  lemma PublishOnceCount()
    ensures CountIn(1, 0, 100) == 70
  {
    CountInSplit(1, 0, 70, 100);
    CountInSplit(1, 70, 90, 100);
    CountInUniform(1, 0, 70);
    CountInNone(1, 70, 90);
    CountInNone(1, 90, 100);
  }

  /** Twenty of the 100 draws publish twice (20%). */
  lemma PublishTwiceCount()
    ensures CountIn(2, 0, 100) == 20
  {
    CountInSplit(2, 0, 70, 100);
    CountInSplit(2, 70, 90, 100);
    CountInNone(2, 0, 70);
    CountInUniform(2, 70, 90);
    CountInNone(2, 90, 100);
  }

  /** Ten of the 100 draws publish three times (10%). */
  lemma PublishThriceCount()
    ensures CountIn(3, 0, 100) == 10
  {
    CountInSplit(3, 0, 70, 100);
    CountInSplit(3, 70, 90, 100);
    CountInNone(3, 0, 70);
    CountInNone(3, 70, 90);
    CountInUniform(3, 90, 100);
  }
}

=== FILE: order_race.dfy ===
/** Concurrent payment handlers for one order, with the INSERT of the
    placeholder attempt row and the COUNT of the idempotency check as
    separate steps (internal-order/main.go, handlePaymentPaid). A schedule
    interleaves the steps of several handlers; each handler inserts before it
    counts. Also the same race between two dispatches' COUNT and INSERT,
    which hands out duplicate attempt numbers. */
module OrderRace {
  import opened Models
  import opened OrderService

  /** One database statement of handler `h`. */
  datatype Step = Insert(h: nat) | Count(h: nat)

  /** The attempts log after the steps: each insert appends a placeholder row. */
  function Run(attempts: seq<Attempt>, steps: seq<Step>, id: string): seq<Attempt>
    decreases |steps|
  {
    if |steps| == 0 then attempts
    else
      var before := Run(attempts, steps[..|steps| - 1], id);
      if steps[|steps| - 1].Insert? then before + [PaidNoticeRow(id)] else before
  }

  function Inserts(steps: seq<Step>): nat
    decreases |steps|
  {
    if |steps| == 0 then 0
    else Inserts(steps[..|steps| - 1]) + (if steps[|steps| - 1].Insert? then 1 else 0)
  }

  /** The count step `k` observes. */
  function Seen(attempts: seq<Attempt>, steps: seq<Step>, id: string, k: nat): nat
    requires k <= |steps|
  {
    AttemptCount(Run(attempts, steps[..k], id), id)
  }

  /** Every count step comes after the same handler's insert. */
  predicate InsertBeforeCount(steps: seq<Step>) {
    forall k :: 0 <= k < |steps| && steps[k].Count? ==> Insert(steps[k].h) in steps[..k]
  }

  /** Handler at step `k` dispatches: it counts and sees at most one row. */
  predicate Dispatches(attempts: seq<Attempt>, steps: seq<Step>, id: string, k: nat)
    requires k < |steps|
  {
    steps[k].Count? && Seen(attempts, steps, id, k) <= 1
  }

  lemma {:induction false} RunCount(attempts: seq<Attempt>, steps: seq<Step>, id: string)
    ensures AttemptCount(Run(attempts, steps, id), id) == AttemptCount(attempts, id) + Inserts(steps)
    decreases |steps|
  {
    if |steps| > 0 {
      RunCount(attempts, steps[..|steps| - 1], id);
      AttemptCountAppend(Run(attempts, steps[..|steps| - 1], id), PaidNoticeRow(id), id);
    }
  }

  lemma {:induction false} InsertsAtLeastOne(steps: seq<Step>, a: nat)
    requires Insert(a) in steps
    ensures Inserts(steps) >= 1
    decreases |steps|
  {
    var last := |steps| - 1;
    if steps[last] != Insert(a) {
      assert steps == steps[..last] + [steps[last]];
      assert Insert(a) in steps[..last];
      InsertsAtLeastOne(steps[..last], a);
    }
  }

  lemma {:induction false} InsertsAtLeastTwo(steps: seq<Step>, a: nat, b: nat)
    requires a != b && Insert(a) in steps && Insert(b) in steps
    ensures Inserts(steps) >= 2
    decreases |steps|
  {
    var last := |steps| - 1;
    assert steps == steps[..last] + [steps[last]];
    if steps[last] == Insert(a) {
      assert Insert(b) in steps[..last];
      InsertsAtLeastOne(steps[..last], b);
    } else if steps[last] == Insert(b) {
      assert Insert(a) in steps[..last];
      InsertsAtLeastOne(steps[..last], a);
    } else {
      assert Insert(a) in steps[..last] && Insert(b) in steps[..last];
      InsertsAtLeastTwo(steps[..last], a, b);
    }
  }

  /** No interleaving lets two different handlers both pass the gate: the
      later of the two counts already sees both handlers' rows. */
  lemma AtMostOneDispatch(attempts: seq<Attempt>, steps: seq<Step>, id: string, k1: nat, k2: nat)
    requires InsertBeforeCount(steps)
    requires k1 < k2 < |steps| && steps[k1].Count? && steps[k2].Count? && steps[k1].h != steps[k2].h
    ensures !(Dispatches(attempts, steps, id, k1) && Dispatches(attempts, steps, id, k2))
  {
    var a, b := steps[k1].h, steps[k2].h;
    assert Insert(a) in steps[..k1];
    assert steps[..k1] == steps[..k2][..k1];
    assert Insert(a) in steps[..k2];
    assert Insert(b) in steps[..k2];
    InsertsAtLeastTwo(steps[..k2], a, b);
    RunCount(attempts, steps[..k2], id);
  }

  /** Zero dispatches is possible: two handlers that both insert before
      either counts each see two rows and both skip. */
  lemma BothInsertFirstNoneDispatch(id: string)
    ensures var steps := [Insert(0), Insert(1), Count(0), Count(1)];
      && InsertBeforeCount(steps)
      && !Dispatches([], steps, id, 2) && !Dispatches([], steps, id, 3)
  {
    var steps := [Insert(0), Insert(1), Count(0), Count(1)];
    var p1, p2, p3 := steps[..1], steps[..2], steps[..3];
    assert p1 == [] + [Insert(0)];
    assert p2 == p1 + [Insert(1)];
    assert p3 == p2 + [Count(0)];
    InsertsAppend([], Insert(0));
    InsertsAppend(p1, Insert(1));
    InsertsAppend(p2, Count(0));
    RunCount([], p2, id);
    RunCount([], p3, id);
    assert Insert(0) in p2 && Insert(1) in p3;
    assert steps[..0] == [];
  }

  lemma InsertsAppend(steps: seq<Step>, s: Step)
    ensures Inserts(steps + [s]) == Inserts(steps) + (if s.Insert? then 1 else 0)
  {
    assert (steps + [s])[..|steps|] == steps;
  }

  // ---------------------------------------------------------------------
  // Concurrent dispatches: processFulfillment counts, then inserts

  /** The log after some dispatch steps, and the count each dispatch read.
      Handler `h` runs dispatch `ds[h]` of the order `o`. */
  datatype DispatchTrace = DispatchTrace(attempts: seq<Attempt>, seen: map<nat, nat>)

  predicate Handlers(steps: seq<Step>, n: nat) {
    forall k :: 0 <= k < |steps| ==> steps[k].h < n
  }

  /** A count step records the rows it sees; an insert step logs the attempt
      numbered by its own handler's earlier count plus one (1 when it has not
      counted, as when the count query fails). */
  function RunDispatches(attempts: seq<Attempt>, o: Order, ds: seq<Dispatch>, steps: seq<Step>): DispatchTrace
    requires Handlers(steps, |ds|)
    decreases |steps|
  {
    if |steps| == 0 then DispatchTrace(attempts, map[])
    else
      var before := RunDispatches(attempts, o, ds, steps[..|steps| - 1]);
      var s := steps[|steps| - 1];
      var d := ds[s.h];
      if s.Count? then before.(seen := before.seen[s.h := AttemptCount(before.attempts, d.orderId)])
      else
        var number := if s.h in before.seen then before.seen[s.h] + 1 else 1;
        before.(attempts := before.attempts + [Attempt(d.orderId, number, Dispatched(RequestFor(o, d)))])
  }

  /** Run one by one, count then insert, two dispatches log exactly what two
      sequential `PrepareDispatch` calls log: numbers n and n + 1. */
  lemma SequentialAttemptNumbers(st: State, d1: Dispatch, d2: Dispatch)
    requires d1.orderId == d2.orderId && d1.orderId in st.orders
    ensures
      var id := d1.orderId;
      var n := AttemptCount(st.attempts, id) + 1;
      var t := RunDispatches(st.attempts, st.orders[id], [d1, d2], [Count(0), Insert(0), Count(1), Insert(1)]);
      var first := PrepareDispatch(st, d1, NoDispatchFaults).0;
      && t.attempts == PrepareDispatch(first, d2, NoDispatchFaults).0.attempts
      && |t.attempts| == |st.attempts| + 2
      && t.attempts[|st.attempts|].attemptNumber == n
      && t.attempts[|st.attempts| + 1].attemptNumber == n + 1
  {
    var id := d1.orderId;
    var o := st.orders[id];
    var ds := [d1, d2];
    var steps := [Count(0), Insert(0), Count(1), Insert(1)];
    var r1 := Attempt(id, AttemptCount(st.attempts, id) + 1, Dispatched(RequestFor(o, d1)));
    AttemptCountAppend(st.attempts, r1, id);
    var p1, p2, p3 := [Count(0)], [Count(0), Insert(0)], [Count(0), Insert(0), Count(1)];
    assert p1[..0] == [] && p2[..1] == p1 && p3[..2] == p2 && steps[..3] == p3;
    var t1 := RunDispatches(st.attempts, o, ds, p1);
    assert t1 == DispatchTrace(st.attempts, map[0 := AttemptCount(st.attempts, id)]);
    var t2 := RunDispatches(st.attempts, o, ds, p2);
    assert t2.attempts == st.attempts + [r1];
    var t3 := RunDispatches(st.attempts, o, ds, p3);
    assert t3.seen[1] == AttemptCount(st.attempts, id) + 1;
  }

  /** Two dispatches for the same order that both count before either
      inserts log the same attempt number: nothing isolates the COUNT from
      the INSERT of `processFulfillment`. */
  lemma DuplicateAttemptNumbers(st: State, d1: Dispatch, d2: Dispatch)
    requires d1.orderId == d2.orderId && d1.orderId in st.orders
    ensures
      var id := d1.orderId;
      var n := AttemptCount(st.attempts, id) + 1;
      var t := RunDispatches(st.attempts, st.orders[id], [d1, d2], [Count(0), Count(1), Insert(0), Insert(1)]);
      && |t.attempts| == |st.attempts| + 2
      && t.attempts[|st.attempts|].attemptNumber == n
      && t.attempts[|st.attempts| + 1].attemptNumber == n
      && AttemptCount(t.attempts, id) == AttemptCount(st.attempts, id) + 2
  {
    var id := d1.orderId;
    var o := st.orders[id];
    var ds := [d1, d2];
    var steps := [Count(0), Count(1), Insert(0), Insert(1)];
    var n := AttemptCount(st.attempts, id) + 1;
    var r1 := Attempt(id, n, Dispatched(RequestFor(o, d1)));
    var r2 := Attempt(id, n, Dispatched(RequestFor(o, d2)));
    AttemptCountAppend(st.attempts, r1, id);
    AttemptCountAppend(st.attempts + [r1], r2, id);
    var p1, p2, p3 := [Count(0)], [Count(0), Count(1)], [Count(0), Count(1), Insert(0)];
    assert p1[..0] == [] && p2[..1] == p1 && p3[..2] == p2 && steps[..3] == p3;
    var t1 := RunDispatches(st.attempts, o, ds, p1);
    assert t1 == DispatchTrace(st.attempts, map[0 := n - 1]);
    var t2 := RunDispatches(st.attempts, o, ds, p2);
    assert t2.attempts == st.attempts && t2.seen == map[0 := n - 1, 1 := n - 1];
    var t3 := RunDispatches(st.attempts, o, ds, p3);
    assert t3.attempts == st.attempts + [r1];
  }
}

=== FILE: order_service.dfy ===
/** The order service (internal-order/main.go) as transitions over its two
    tables: `internal_orders` (a map keyed by the primary key `id`) and the
    append-only `fulfillment_attempts` log. Every database failure is an
    explicit boolean input; the outcome of the outbound HTTP call is an input. */
module OrderService {
  import opened Base
  import opened Models
  import OrderGen

  datatype State = State(orders: map<string, Order>, attempts: seq<Attempt>)

  /** `SELECT COUNT(*) FROM fulfillment_attempts WHERE order_id = ?`. */
  function AttemptCount(attempts: seq<Attempt>, id: string): nat
    decreases |attempts|
  {
    if |attempts| == 0 then 0
    else AttemptCount(attempts[..|attempts| - 1], id) + (if attempts[|attempts| - 1].orderId == id then 1 else 0)
  }

  lemma AttemptCountAppend(attempts: seq<Attempt>, row: Attempt, id: string)
    ensures AttemptCount(attempts + [row], id) == AttemptCount(attempts, id) + (if row.orderId == id then 1 else 0)
  {
    assert (attempts + [row])[..|attempts|] == attempts;
  }

  /** `after` is `before` with at most the status of order `id` replaced by
      `s`: an UPDATE ... WHERE id = ? that touches no row when `id` is absent. */
  predicate StatusSet(before: map<string, Order>, after: map<string, Order>, id: string, s: OrderStatus) {
    && after.Keys == before.Keys
    && (id in before ==> after[id] == before[id].(status := s))
    && (forall k :: k in before && k != id ==> after[k] == before[k])
  }

  /** `UPDATE internal_orders SET status = s WHERE id = ?`. */
  function SetStatus(orders: map<string, Order>, id: string, s: OrderStatus): (m: map<string, Order>)
    ensures StatusSet(orders, m, id, s)
  {
    if id in orders then orders[id := orders[id].(status := s)] else orders
  }

  /** The clock reads and generated id one order creation consumes. */
  datatype OrderDraws = OrderDraws(id: string, nOperator: nat, nAmount: nat, nPhone: nat, createdAt: int)

  /** The reply body carries exactly the stored order's fields. */
  predicate Describes(resp: CreateOrderResponse, o: Order) {
    && resp.id == o.id && resp.status == o.status && resp.amount == o.amount
    && resp.adminFee == o.adminFee && resp.total == o.total
    && resp.operator == o.operator && resp.destinationPhone == o.destinationPhone
  }

  /** `createOrder`: a duplicate primary key makes the INSERT fail like any
      other storage error. */
  function CreateOrder(st: State, isPost: bool, draws: OrderDraws, insertFails: bool): (r: (State, Reply<CreateOrderResponse>))
    ensures !isPost ==> r.0 == st && r.1.Code() == StatusMethodNotAllowed
    ensures isPost && (insertFails || draws.id in st.orders) ==> r.0 == st && r.1.Code() == StatusInternalServerError
    ensures isPost && !insertFails && draws.id !in st.orders ==>
      && r.1.Ok?
      && r.1.body.id == draws.id
      && r.0.attempts == st.attempts
      && r.0.orders.Keys == st.orders.Keys + {draws.id}
      && (forall k :: k in st.orders ==> r.0.orders[k] == st.orders[k])
      && r.0.orders[draws.id] == OrderGen.GenerateRandomOrder(draws.id, draws.nOperator, draws.nAmount, draws.nPhone, draws.createdAt)
      && Describes(r.1.body, r.0.orders[draws.id])
      && r.1.body.status == Pending
      && r.1.body.total == r.1.body.amount + r.1.body.adminFee
      && r.1.body.adminFee == OrderGen.AdminFee(r.1.body.operator)
  {
    if !isPost then (st, HttpError(StatusMethodNotAllowed, "Method not allowed"))
    else
      var o := OrderGen.GenerateRandomOrder(draws.id, draws.nOperator, draws.nAmount, draws.nPhone, draws.createdAt);
      if insertFails || o.id in st.orders then (st, HttpError(StatusInternalServerError, "Internal server error"))
      else
        var resp := CreateOrderResponse(o.id, o.status, o.amount, o.adminFee, o.total, o.operator, o.destinationPhone);
        (st.(orders := st.orders[o.id := o]), Ok(resp))
  }

  /** Which database statements of the payment handler fail. */
  datatype HandlerFaults = HandlerFaults(updateFails: bool, insertFails: bool, countFails: bool)

  const NoHandlerFaults := HandlerFaults(false, false, false)

  /** A detached `processFulfillment` task the handler started. */
  datatype Dispatch = Dispatch(orderId: string, correlationId: string)

  /** The placeholder row the handler logs for every delivery. */
  function PaidNoticeRow(id: string): Attempt {
    Attempt(id, 1, PaidNotice(id, 0, ""))
  }

  /** `handlePaymentPaid` for one delivery: `delivery` is None when the payload
      does not unmarshal; `toggle` is `IDEMPOTENCY_CHECK`; `generated` is the
      correlation id generated when the message carries none. */
  function HandlePaymentPaid(st: State, delivery: Option<PaymentPaidMessage>, toggle: bool, faults: HandlerFaults, generated: string): (r: (State, Option<Dispatch>))
    ensures delivery.None? || faults.updateFails ==> r == (st, None)
    ensures delivery.Some? && !faults.updateFails ==>
      var id := delivery.value.orderId;
      && StatusSet(st.orders, r.0.orders, id, Paid)
      && r.0.attempts == st.attempts + (if faults.insertFails then [] else [PaidNoticeRow(id)])
      && (r.1.None? <==> toggle && !faults.countFails && AttemptCount(r.0.attempts, id) > 1)
      && (r.1.Some? ==> r.1.value.orderId == id)
      && (r.1.Some? && delivery.value.correlationId != "" ==> r.1.value.correlationId == delivery.value.correlationId)
      && (r.1.Some? && delivery.value.correlationId == "" ==> r.1.value.correlationId == generated)
  {
    match delivery
    case None => (st, None)
    case Some(msg) =>
      var correlation := if msg.correlationId == "" then generated else msg.correlationId;
      if faults.updateFails then (st, None)
      else
        var orders := SetStatus(st.orders, msg.orderId, Paid);
        var attempts := if faults.insertFails then st.attempts else st.attempts + [PaidNoticeRow(msg.orderId)];
        var skip := toggle && !faults.countFails && AttemptCount(attempts, msg.orderId) > 1;
        (State(orders, attempts), if skip then None else Some(Dispatch(msg.orderId, correlation)))
  }

  /** Which database statements of a dispatch fail. `lookupFails` covers both
      a query error and a missing row. */
  datatype DispatchFaults = DispatchFaults(lookupFails: bool, countFails: bool, insertFails: bool, updateFails: bool)

  const NoDispatchFaults := DispatchFaults(false, false, false, false)

  /** What the outbound POST to the fulfilment service returned: a transport
      error (including the 5 s deadline) or an HTTP status. */
  datatype CallOutcome = TransportError(message: string) | HttpStatus(code: int)

  /** The request a dispatch sends for a stored order. */
  function RequestFor(o: Order, d: Dispatch): FulfilmentRequest {
    FulfilmentRequest(d.orderId, o.destinationPhone, o.amount, d.correlationId)
  }

  /** The attempt number a dispatch records: the current row count plus one,
      or 1 when the count query fails. */
  function NextAttemptNumber(attempts: seq<Attempt>, id: string, countFails: bool): nat {
    if countFails then 1 else AttemptCount(attempts, id) + 1
  }

  /** The part of `processFulfillment` before the outbound call: read the
      order, number and log the attempt. Returns the request to send, or None
      when the order cannot be read (then nothing else happens). */
  function PrepareDispatch(st: State, d: Dispatch, faults: DispatchFaults): (r: (State, Option<FulfilmentRequest>))
    ensures faults.lookupFails || d.orderId !in st.orders ==> r == (st, None)
    ensures !faults.lookupFails && d.orderId in st.orders ==>
      && r.1 == Some(RequestFor(st.orders[d.orderId], d))
      && r.0.orders == st.orders
      && r.0.attempts == st.attempts +
           (if faults.insertFails then []
            else [Attempt(d.orderId, NextAttemptNumber(st.attempts, d.orderId, faults.countFails), Dispatched(r.1.value))])
  {
    if faults.lookupFails || d.orderId !in st.orders then (st, None)
    else
      var request := RequestFor(st.orders[d.orderId], d);
      var number := NextAttemptNumber(st.attempts, d.orderId, faults.countFails);
      var attempts := if faults.insertFails then st.attempts else st.attempts + [Attempt(d.orderId, number, Dispatched(request))];
      (st.(attempts := attempts), Some(request))
  }

  /** The part of `processFulfillment` after the outbound call: only an
      HTTP 200 moves the order to `fulfilment`, whatever the body says. */
  function ApplyReply(st: State, id: string, outcome: CallOutcome, updateFails: bool): (s: State)
    ensures s.attempts == st.attempts
    ensures outcome == HttpStatus(StatusOK) && !updateFails ==> StatusSet(st.orders, s.orders, id, Fulfilment)
    ensures outcome != HttpStatus(StatusOK) || updateFails ==> s.orders == st.orders
  {
    if outcome == HttpStatus(StatusOK) && !updateFails then st.(orders := SetStatus(st.orders, id, Fulfilment))
    else st
  }

  /** `processFulfillment`: returns the request sent, None when no call was made. */
  function ProcessFulfillment(st: State, d: Dispatch, faults: DispatchFaults, outcome: CallOutcome): (r: (State, Option<FulfilmentRequest>))
    ensures faults.lookupFails || d.orderId !in st.orders ==> r == (st, None)
    ensures !faults.lookupFails && d.orderId in st.orders ==>
      var o := st.orders[d.orderId];
      && r.1 == Some(RequestFor(o, d))
      && r.1.value.amount == o.amount && r.1.value.destinationPhone == o.destinationPhone
      && r.0.attempts == st.attempts +
           (if faults.insertFails then []
            else [Attempt(d.orderId, NextAttemptNumber(st.attempts, d.orderId, faults.countFails), Dispatched(r.1.value))])
      && d.orderId in r.0.orders
      && (r.0.orders[d.orderId].status == Fulfilment <==>
            (outcome == HttpStatus(StatusOK) && !faults.updateFails) || o.status == Fulfilment)
      && (outcome != HttpStatus(StatusOK) || faults.updateFails ==> r.0.orders == st.orders)
      && StatusSet(st.orders, r.0.orders, d.orderId, r.0.orders[d.orderId].status)
  {
    var (prepared, request) := PrepareDispatch(st, d, faults);
    if request.None? then (prepared, None)
    else (ApplyReply(prepared, d.orderId, outcome, faults.updateFails), request)
  }

  /** The placeholder rows a run of fault-free deliveries logs, one per message. */
  function PaidRows(msgs: seq<PaymentPaidMessage>): (rows: seq<Attempt>)
    ensures |rows| == |msgs|
  {
    seq(|msgs|, i requires 0 <= i < |msgs| => PaidNoticeRow(msgs[i].orderId))
  }

  /** Deliveries of `msgs`, one handler call each, processed one after the
      other without faults; returns the final state and the dispatches made. */
  function DeliverAll(st: State, msgs: seq<PaymentPaidMessage>, toggle: bool, generated: string): (r: (State, seq<Dispatch>))
    ensures r.0.orders.Keys == st.orders.Keys
    ensures r.0.attempts == st.attempts + PaidRows(msgs)
    ensures |r.0.attempts| == |st.attempts| + |msgs|
    ensures |r.1| <= |msgs|
    decreases |msgs|
  {
    if |msgs| == 0 then (st, [])
    else
      var (next, dispatch) := HandlePaymentPaid(st, Some(msgs[0]), toggle, NoHandlerFaults, generated);
      var (last, rest) := DeliverAll(next, msgs[1..], toggle, generated);
      assert PaidRows(msgs) == [PaidNoticeRow(msgs[0].orderId)] + PaidRows(msgs[1..]);
      (last, (if dispatch.Some? then [dispatch.value] else []) + rest)
  }

  predicate AllFor(msgs: seq<PaymentPaidMessage>, id: string) {
    forall i :: 0 <= i < |msgs| ==> msgs[i].orderId == id
  }

  /** Once an attempt row exists for the order, no further delivery for it
      dispatches (toggle on), and the row count only grows. */
  lemma {:induction false} NoDispatchAfterFirstRow(st: State, msgs: seq<PaymentPaidMessage>, id: string, generated: string)
    requires AllFor(msgs, id)
    requires AttemptCount(st.attempts, id) >= 1
    ensures DeliverAll(st, msgs, true, generated).1 == []
    ensures AttemptCount(DeliverAll(st, msgs, true, generated).0.attempts, id) == AttemptCount(st.attempts, id) + |msgs|
    decreases |msgs|
  {
    if |msgs| > 0 {
      var (next, dispatch) := HandlePaymentPaid(st, Some(msgs[0]), true, NoHandlerFaults, generated);
      AttemptCountAppend(st.attempts, PaidNoticeRow(id), id);
      assert AllFor(msgs[1..], id);
      NoDispatchAfterFirstRow(next, msgs[1..], id, generated);
    }
  }

  /** With the idempotency check on, K sequential deliveries for one order
      dispatch at most once, and exactly once when no attempt row existed. */
  lemma {:induction false} ToggleOnDispatchesAtMostOnce(st: State, msgs: seq<PaymentPaidMessage>, id: string, generated: string)
    requires AllFor(msgs, id)
    ensures |DeliverAll(st, msgs, true, generated).1| <= 1
    ensures |DeliverAll(st, msgs, true, generated).1| == 1 <==> |msgs| > 0 && AttemptCount(st.attempts, id) == 0
    ensures forall d :: d in DeliverAll(st, msgs, true, generated).1 ==> d.orderId == id
    ensures AttemptCount(DeliverAll(st, msgs, true, generated).0.attempts, id) == AttemptCount(st.attempts, id) + |msgs|
  {
    if |msgs| > 0 {
      var (next, dispatch) := HandlePaymentPaid(st, Some(msgs[0]), true, NoHandlerFaults, generated);
      AttemptCountAppend(st.attempts, PaidNoticeRow(id), id);
      assert AllFor(msgs[1..], id);
      NoDispatchAfterFirstRow(next, msgs[1..], id, generated);
    }
  }

  /** With the idempotency check off, every one of K deliveries dispatches,
      in delivery order. */
  lemma {:induction false} ToggleOffDispatchesEach(st: State, msgs: seq<PaymentPaidMessage>, generated: string)
    ensures |DeliverAll(st, msgs, false, generated).1| == |msgs|
    ensures forall i :: 0 <= i < |msgs| ==> DeliverAll(st, msgs, false, generated).1[i].orderId == msgs[i].orderId
    decreases |msgs|
  {
    if |msgs| > 0 {
      var (next, dispatch) := HandlePaymentPaid(st, Some(msgs[0]), false, NoHandlerFaults, generated);
      ToggleOffDispatchesEach(next, msgs[1..], generated);
    }
  }

  /** However many deliveries arrive for an order, the orders table ends as
      after the first one: that order in `paid`, every other order untouched. */
  lemma {:induction false} DeliverAllMarksPaid(st: State, msgs: seq<PaymentPaidMessage>, toggle: bool, generated: string, id: string)
    requires AllFor(msgs, id) && |msgs| > 0
    ensures DeliverAll(st, msgs, toggle, generated).0.orders == SetStatus(st.orders, id, Paid)
    decreases |msgs|
  {
    var (next, dispatch) := HandlePaymentPaid(st, Some(msgs[0]), toggle, NoHandlerFaults, generated);
    if |msgs| > 1 {
      assert AllFor(msgs[1..], id);
      DeliverAllMarksPaid(next, msgs[1..], toggle, generated, id);
    }
  }

  /** The handler never looks at the paid amount or time: two deliveries that
      differ only there have the same effect. */
  lemma PaidAmountIgnored(st: State, msg: PaymentPaidMessage, amount: int, paidAt: int, toggle: bool, faults: HandlerFaults, generated: string)
    ensures HandlePaymentPaid(st, Some(msg), toggle, faults, generated)
         == HandlePaymentPaid(st, Some(msg.(paidAmount := amount, paidAt := paidAt)), toggle, faults, generated)
  {
  }

  /** A late duplicate delivery moves an order already in `fulfilment` back to `paid`. */
  lemma LateDuplicateRegresses(st: State, msg: PaymentPaidMessage, toggle: bool, generated: string)
    requires msg.orderId in st.orders && st.orders[msg.orderId].status == Fulfilment
    ensures HandlePaymentPaid(st, Some(msg), toggle, NoHandlerFaults, generated).0.orders[msg.orderId].status == Paid
  {
  }

  /** The count gate fails open: when the first copy's placeholder INSERT
      fails, the check on does not stop the second copy, and both dispatch. */
  lemma InsertFailureFailsOpen(st: State, m1: PaymentPaidMessage, m2: PaymentPaidMessage, generated: string)
    requires m1.orderId == m2.orderId && AttemptCount(st.attempts, m1.orderId) == 0
    ensures
      var (s1, first) := HandlePaymentPaid(st, Some(m1), true, HandlerFaults(false, true, false), generated);
      var (s2, second) := HandlePaymentPaid(s1, Some(m2), true, NoHandlerFaults, generated);
      first.Some? && second.Some?
  {
    AttemptCountAppend(st.attempts, PaidNoticeRow(m1.orderId), m1.orderId);
  }

  /** The dispatch runs detached, so it can finish before a second copy is
      handled. On that schedule the order reaches `fulfilment` with attempt
      number 2, and the second copy then dispatches nothing and moves the
      order back to `paid`, where it stays. */
  lemma {:induction false} DispatchBeforeDuplicateRegresses(st: State, m1: PaymentPaidMessage, m2: PaymentPaidMessage, generated: string)
    requires m1.orderId == m2.orderId && m1.orderId in st.orders
    requires AttemptCount(st.attempts, m1.orderId) == 0
    ensures
      var id := m1.orderId;
      var (s1, dispatch) := HandlePaymentPaid(st, Some(m1), true, NoHandlerFaults, generated);
      && dispatch.Some?
      && var (s2, sent) := ProcessFulfillment(s1, dispatch.value, NoDispatchFaults, HttpStatus(StatusOK));
      && sent.Some?
      && s2.orders[id].status == Fulfilment
      && s2.attempts[|s2.attempts| - 1].attemptNumber == 2
      && var (s3, again) := HandlePaymentPaid(s2, Some(m2), true, NoHandlerFaults, generated);
      && again.None?
      && s3.orders[id].status == Paid
  {
    var id := m1.orderId;
    AttemptCountAppend(st.attempts, PaidNoticeRow(id), id);
    var (s1, dispatch) := HandlePaymentPaid(st, Some(m1), true, NoHandlerFaults, generated);
    var (s2, sent) := ProcessFulfillment(s1, dispatch.value, NoDispatchFaults, HttpStatus(StatusOK));
    var row := s2.attempts[|s2.attempts| - 1];
    assert s2.attempts == s1.attempts + [row];
    AttemptCountAppend(s1.attempts, row, id);
    AttemptCountAppend(s2.attempts, PaidNoticeRow(id), id);
  }

  /** A delivery for an unknown order still logs an attempt row and, as the
      first row, dispatches; the dispatch then finds no order and makes no
      call, so the orders table never changes. */
  lemma UnknownOrderIsInert(st: State, msg: PaymentPaidMessage, generated: string, outcome: CallOutcome)
    requires msg.orderId !in st.orders && AttemptCount(st.attempts, msg.orderId) == 0
    ensures var (next, dispatch) := HandlePaymentPaid(st, Some(msg), true, NoHandlerFaults, generated);
      && next.orders == st.orders
      && |next.attempts| == |st.attempts| + 1
      && dispatch.Some?
      && ProcessFulfillment(next, dispatch.value, NoDispatchFaults, outcome) == (next, None)
  {
    AttemptCountAppend(st.attempts, PaidNoticeRow(msg.orderId), msg.orderId);
  }
}

=== FILE: payment_service.dfy ===
/** The payment service (internal-payment/main.go). A NATS publish appends
    to an outbox; `internal_payments` is a map because of its unique key on
    `order_id`. The handler's artificial delay before publishing
    (internal-payment/main.go:85) is not modelled: it changes when the reply
    comes, never what it is, and a caller's deadline firing during it is an
    outcome of the harness's `PaymentCall`. */
module PaymentService {
  import opened Base
  import opened Models
  import OrderGen

  datatype State = State(outbox: seq<PaymentPaidMessage>, payments: map<string, Payment>)

  /** The per-request inputs: the correlation id generated when the request
      carries none, the publish-count draw, the `paid_at` clock read, the
      indices of publishes that fail, and whether the payment INSERT fails. */
  datatype Env = Env(generated: string, chance: nat, paidAt: int, failedPublishes: set<nat>, storeFails: bool)

  /** Publishes `copies` identical messages, skipping the failed ones. */
  function PublishCopies(outbox: seq<PaymentPaidMessage>, msg: PaymentPaidMessage, copies: nat, failed: set<nat>): (r: seq<PaymentPaidMessage>)
    ensures |outbox| <= |r| <= |outbox| + copies
    ensures r[..|outbox|] == outbox
    ensures forall i :: |outbox| <= i < |r| ==> r[i] == msg
    ensures (forall i :: 0 <= i < copies ==> i !in failed) ==> |r| == |outbox| + copies
    decreases copies
  {
    if copies == 0 then outbox
    else
      var before := PublishCopies(outbox, msg, copies - 1, failed);
      if copies - 1 in failed then before else before + [msg]
  }

  /** `INSERT ... ON DUPLICATE KEY UPDATE order_id = order_id`. */
  function StorePayment(payments: map<string, Payment>, id: string, p: Payment, fails: bool): (m: map<string, Payment>)
    ensures !fails ==> m.Keys == payments.Keys + {id}
    ensures fails ==> m == payments
    ensures forall k :: k in payments ==> m[k] == payments[k]
    ensures !fails && id !in payments ==> m[id] == p
  {
    if fails || id in payments then payments else payments[id := p]
  }

  /** The message a decoded request publishes. */
  function MessageFor(req: PaymentRequest, env: Env): PaymentPaidMessage {
    var correlation := if req.correlationId == "" then env.generated else req.correlationId;
    PaymentPaidMessage(req.orderId, req.paidAmount, env.paidAt, correlation)
  }

  /** The publishing half of `triggerPaymentPaid`, which runs first. */
  function Publish(st: State, req: PaymentRequest, env: Env): State {
    st.(outbox := PublishCopies(st.outbox, MessageFor(req, env), OrderGen.DeterminePublishCount(env.chance), env.failedPublishes))
  }

  /** The storing half, which runs after publishing. */
  function Store(st: State, req: PaymentRequest, env: Env): State {
    st.(payments := StorePayment(st.payments, req.orderId, Payment(req.paidAmount, env.paidAt), env.storeFails))
  }

  /** `triggerPaymentPaid`. */
  function TriggerPaymentPaid(st: State, request: Request<PaymentRequest>, env: Env): (r: (State, Reply<PaymentResponse>))
    ensures !request.isPost ==> r.0 == st && r.1.Code() == StatusMethodNotAllowed
    ensures request.isPost && request.body.None? ==> r.0 == st && r.1.Code() == StatusBadRequest
    ensures request.isPost && request.body.Some? ==>
      var req := request.body.value;
      var copies := OrderGen.DeterminePublishCount(env.chance);
      && r.1 == Ok(PaymentResponse("success"))
      && |st.outbox| <= |r.0.outbox| <= |st.outbox| + copies
      && r.0.outbox[..|st.outbox|] == st.outbox
      && (forall i :: |st.outbox| <= i < |r.0.outbox| ==>
            && r.0.outbox[i].orderId == req.orderId
            && r.0.outbox[i].paidAmount == req.paidAmount
            && r.0.outbox[i].paidAt == env.paidAt
            && r.0.outbox[i].correlationId == (if req.correlationId == "" then env.generated else req.correlationId))
      && (env.failedPublishes == {} ==> |r.0.outbox| == |st.outbox| + copies)
      && (!env.storeFails ==> req.orderId in r.0.payments)
      && (env.storeFails ==> r.0.payments == st.payments)
      && (forall k :: k in st.payments ==> k in r.0.payments && r.0.payments[k] == st.payments[k])
      && (!env.storeFails && req.orderId !in st.payments ==> r.0.payments[req.orderId] == Payment(req.paidAmount, env.paidAt))
      && r.0.payments.Keys <= st.payments.Keys + {req.orderId}
  {
    if !request.isPost then (st, HttpError(StatusMethodNotAllowed, "Method not allowed"))
    else if request.body.None? then (st, HttpError(StatusBadRequest, "Invalid request body"))
    else
      var req := request.body.value;
      (Store(Publish(st, req, env), req, env), Ok(PaymentResponse("success")))
  }

  /** Between the two halves, a fresh order's messages are already out while
      its payment record does not exist yet. */
  lemma PublishedBeforeStored(st: State, req: PaymentRequest, env: Env)
    requires req.orderId !in st.payments && env.failedPublishes == {}
    ensures var mid := Publish(st, req, env);
      && req.orderId !in mid.payments
      && exists i :: |st.outbox| <= i < |mid.outbox| && mid.outbox[i].orderId == req.orderId
  {
    var mid := Publish(st, req, env);
    assert mid.outbox[|st.outbox|].orderId == req.orderId;
  }

  /** Runs several successful (POST, decodable) triggers one after the other. */
  function TriggerAll(st: State, reqs: seq<PaymentRequest>, envs: seq<Env>): State
    requires |reqs| == |envs|
    decreases |reqs|
  {
    if |reqs| == 0 then st
    else TriggerAll(TriggerPaymentPaid(st, Request(true, Some(reqs[0])), envs[0]).0, reqs[1..], envs[1..])
  }

  /** However many triggers (and hence 1-3 publishes each) an order sees, it
      ends with exactly one payment record, holding the amount and time of
      the first trigger, whose store succeeds. */
  lemma {:induction false} OnePaymentRecordPerOrder(st: State, reqs: seq<PaymentRequest>, envs: seq<Env>, id: string)
    requires |reqs| == |envs| && |reqs| > 0
    requires forall i :: 0 <= i < |reqs| ==> reqs[i].orderId == id
    requires id !in st.payments && !envs[0].storeFails
    ensures var end := TriggerAll(st, reqs, envs);
      && id in end.payments
      && end.payments[id] == Payment(reqs[0].paidAmount, envs[0].paidAt)
      && end.payments.Keys == st.payments.Keys + {id}
  {
    var next := TriggerPaymentPaid(st, Request(true, Some(reqs[0])), envs[0]).0;
    RecordUnchanged(next, reqs[1..], envs[1..], id);
  }

  /** Once an order has a record, further triggers for it leave the whole
      payments table as it was. */
  lemma {:induction false} RecordUnchanged(st: State, reqs: seq<PaymentRequest>, envs: seq<Env>, id: string)
    requires |reqs| == |envs|
    requires forall i :: 0 <= i < |reqs| ==> reqs[i].orderId == id
    requires id in st.payments
    ensures TriggerAll(st, reqs, envs).payments == st.payments
    decreases |reqs|
  {
    if |reqs| > 0 {
      var next := TriggerPaymentPaid(st, Request(true, Some(reqs[0])), envs[0]).0;
      assert next.payments == st.payments;
      RecordUnchanged(next, reqs[1..], envs[1..], id);
    }
  }
}

=== FILE: pipeline.dfy ===
/** The three services wired together for one order on the happy path: the
    order service creates it, the payment service publishes 1-3 copies of
    `payment.paid` and stores the payment, the order service consumes every
    copy, and its single dispatch calls the fulfilment service. */
module Pipeline {
  import opened Base
  import opened Models
  import OrderService
  import PaymentService
  import Fulfilment

  /** The request the payment trigger sends for a freshly created order.
      `correlation` is the harness's fresh 6-character id, sent in the body. */
  function PayFor(created: CreateOrderResponse, correlation: string): Request<PaymentRequest> {
    Request(true, Some(PaymentRequest(created.id, created.total, correlation)))
  }

  /** The copies of `payment.paid` one trigger added to the outbox. */
  function Published(before: PaymentService.State, after: PaymentService.State): seq<PaymentPaidMessage>
    requires |before.outbox| <= |after.outbox|
  {
    after.outbox[|before.outbox|..]
  }

  /** Every copy a trigger publishes is for the order it was asked to pay. */
  lemma PublishedForOrder(ps: PaymentService.State, req: PaymentRequest, env: PaymentService.Env)
    requires env.failedPublishes == {}
    ensures var ps1 := PaymentService.TriggerPaymentPaid(ps, Request(true, Some(req)), env).0;
      && |ps.outbox| < |ps1.outbox|
      && OrderService.AllFor(Published(ps, ps1), req.orderId)
  {
    var ps1 := PaymentService.TriggerPaymentPaid(ps, Request(true, Some(req)), env).0;
    var msgs := Published(ps, ps1);
    forall i | 0 <= i < |msgs|
      ensures msgs[i].orderId == req.orderId
    {
      assert msgs[i] == ps1.outbox[|ps.outbox| + i];
    }
  }

  /** End to end, with the order service's idempotency check on, no storage
      or publish failures, and the schedule where every published copy is
      handled before the one dispatch runs: the order moves pending -> paid ->
      fulfilment, the payment holds the order's total, exactly one dispatch
      happens however many copies were published, its attempt number counts
      the earlier attempt rows, and the fulfilment service stores the order's
      amount and phone. The order reaches `fulfilment` even when the
      fulfilment service answered with a random error, because only the HTTP
      status is read. The dispatch is a detached task and may instead run
      between two copies; `OrderService.DispatchBeforeDuplicateRegresses`
      shows that a later copy then moves the order back to `paid`. */
  lemma {:induction false} OrderReachesFulfilment(
    os: OrderService.State, ps: PaymentService.State, fs: Fulfilment.State,
    draws: OrderService.OrderDraws, correlation: string, penv: PaymentService.Env,
    generated: string, fenv: Fulfilment.Env, externalCheck: bool)
    requires draws.id !in os.orders && OrderService.AttemptCount(os.attempts, draws.id) == 0
    requires draws.id !in ps.payments && penv.failedPublishes == {} && !penv.storeFails
    requires Fulfilment.RowCount(fs.rows, draws.id) == 0
    requires !fenv.lookupFails && !fenv.insertFails
    ensures
      var (os1, created) := OrderService.CreateOrder(os, true, draws, false);
      var (ps1, paid) := PaymentService.TriggerPaymentPaid(ps, PayFor(created.body, correlation), penv);
      var msgs := Published(ps, ps1);
      var (os2, dispatches) := OrderService.DeliverAll(os1, msgs, true, generated);
      && paid == Ok(PaymentResponse("success"))
      && os1.orders[draws.id].status == Pending
      && ps1.payments[draws.id] == Payment(os1.orders[draws.id].total, penv.paidAt)
      && 1 <= |msgs| <= 3
      && os2.orders[draws.id].status == Paid
      && |dispatches| == 1
      && var d := dispatches[0];
      var request := OrderService.RequestFor(os2.orders[draws.id], d);
      var (fs1, reply) := Fulfilment.ProcessOrder(fs, Request(true, Some(request)), externalCheck, fenv);
      var (os3, sent) := OrderService.ProcessFulfillment(os2, d, OrderService.NoDispatchFaults, OrderService.HttpStatus(reply.Code()));
      && sent == Some(request)
      && reply.Code() == StatusOK
      && os3.orders[draws.id].status == Fulfilment
      && os3.attempts[|os3.attempts| - 1].attemptNumber == |msgs| + 1
      && Fulfilment.RowCount(fs1.rows, draws.id) == 1
      && fs1.rows[|fs.rows|].amount == os1.orders[draws.id].amount
      && fs1.rows[|fs.rows|].destinationPhone == os1.orders[draws.id].destinationPhone
  {
    var id := draws.id;
    var (os1, created) := OrderService.CreateOrder(os, true, draws, false);
    var req := PaymentRequest(created.body.id, created.body.total, correlation);
    PublishedForOrder(ps, req, penv);
    var (ps1, paid) := PaymentService.TriggerPaymentPaid(ps, PayFor(created.body, correlation), penv);
    var msgs := Published(ps, ps1);
    OrderService.ToggleOnDispatchesAtMostOnce(os1, msgs, id, generated);
    OrderService.DeliverAllMarksPaid(os1, msgs, true, generated, id);
    var (os2, dispatches) := OrderService.DeliverAll(os1, msgs, true, generated);
    assert dispatches[0] in dispatches;
    var d := dispatches[0];
    var request := OrderService.RequestFor(os2.orders[id], d);
    Fulfilment.RowCountZero(fs.rows, id);
    var (fs1, reply) := Fulfilment.ProcessOrder(fs, Request(true, Some(request)), externalCheck, fenv);
    Fulfilment.RowCountAppend(fs.rows, fs1.rows[|fs.rows|], id);
    assert fs1.rows == fs.rows + [fs1.rows[|fs.rows|]];
  }
}
